=== FILE: README.md ===
# markdownify: a Dafny model of the document-to-Markdown converters

The repository holds two ways of turning office documents into Markdown.

- **`MarkdownifyMCP`** (`test.py`; `test01.py` is a byte-identical copy):
  - a class whose `convert` dispatches on the lower-cased extension to a Word, PDF or Excel converter;
  - each converter collects Markdown fragments in a list;
  - `_save_md` joins them with newlines into `<output_dir>/<stem>.md`.
  - The PDF converter infers headings. `_analyze_font_sizes` ranks the five largest distinct font sizes as levels 1 to 5. A text line is then a heading when two of three signals agree: a profiled font size, a centred box, or upper-case text.
- **The direct converters** (`test02.py`):
  - `convert_file` picks `docx_to_md`, `pdf_to_md`, `txt_to_md` or `xlsx_to_md` from the extension of the file name;
  - each of these writes lines straight to the open output file;
  - every text written is cleaned by `encode('utf-8', errors='ignore').decode('utf-8')`; table cells are stripped first, and style names are read as they are, never cleaned.

The model is split into these modules:

| module | file | what it holds |
|---|---|---|
| `Wrappers` | `wrappers.dfy` | `Option` and `Result` |
| `Text` | `text.dfy` | the Python `str` operations used: `strip`, `join`, `split`, `replace`, `*`, `str(n)`, `int()`, `isupper`, `lower` |
| `Paths` | `paths.dfy` | POSIX `os.path.basename`, `splitext` and `join`, and the output path |
| `PdfLayout` | `pdf_layout.dfy` | the records the PDF library returns (pages, text lines, characters, tables) |
| `FontProfile` | `font_profile.dfy` | `_analyze_font_sizes` |
| `HeadingVote` | `heading_vote.dfy` | the inline three-signal vote, the fragment of a block, and `_detect_heading` |
| `Markdownify` | `markdownify.dfy` | the `MarkdownifyMCP` converters and `convert` |
| `Utf8` | `utf8.dfy` | the UTF-8 encoder (with `errors='ignore'`) and the strict decoder, over Python code points |
| `DirectConvert` | `direct_convert.dfy` | the direct converters |

How the source is represented:

- **Python strings.** A Python `str` may hold lone surrogates (U+D800–U+DFFF) and a Dafny `char` cannot. So texts that reach the cleanup are `PyStr`, a sequence of code points, and what the cleanup returns is a Dafny `string`.
- **Output files.**
  - In `MarkdownifyMCP`, the converters build a list of fragments, and the file is the value `OutputFile(path, text)`.
  - In the direct converters, the output file is a class `MdFile` that records every `write` in order.
  - The converters' loops are methods, each proved against a function that states what the whole loop writes.
- **Raising.** An exception that ends a conversion is an `Err` result, a `None`, or a `raised` flag. The `try`/`except` layers of the PDF converter are explicit skips.

## Model

| member | source | states |
|---|---|---|
| `FontProfile.DistinctDescending` | test.py:138 | `sorted(set(sizes), reverse=True)` is strictly descending and holds exactly the sizes that occur |
| `FontProfile.DescendingUnique` | test.py:138 | two strictly descending lists with the same elements are equal, so the sorted list is determined by the set of sizes |
| `FontProfile.RankIsPosition` | test.py:138-141 | the size at position `j` of the sorted list has exactly `j` larger distinct sizes |
| `FontProfile.LevelsAt` | test.py:139-141 | the comprehension's keys are the listed sizes, and the size at position `j` gets `min(j + 1, 6)` |
| `FontProfile.FontMapAt` | test.py:139-141 | the keys are the top five sizes, and the `j`-th of them has level `j + 1` |
| `FontProfile.FontMapByRank` | test.py:138-141 | a size is a key iff it occurs and fewer than five distinct sizes are larger; its level is that count plus one |
| `FontProfile.FontMapBounds` | test.py:131-142 | at most five keys, every key an observed size with level 1..5 (the cap at 6 never applies); no sizes give the empty map |
| `FontProfile.FontMapOrder` | test01.py:138-141 | of two keys, the larger size has the smaller level; every observed size left out is smaller than every key |
| `FontProfile.PageSizes` | test.py:133-135 | the sizes of a page's characters in order, or `None` iff some character has no `size` (the `KeyError`) |
| `FontProfile.DocumentSizes` | test.py:131-135 | the gathered sizes, or `None` iff some character on some page has no size |
| `FontProfile.DocumentSizesMembers` | test.py:131-135 | the gathered sizes are exactly the sizes of the document's characters: a size is in the list iff some character on some page has it |
| `FontProfile.TopSizes` | test.py:138-141 | the definition of `unique_sizes[:5]`; `FontMapAt` and `FontMapByRank` state that it holds the (at most) five largest distinct sizes in descending order |
| `FontProfile.Levels` | test.py:139-141 | the definition of the comprehension over `enumerate(top)`; `LevelsAt` states its keys and levels |
| `FontProfile.FontMap` | test.py:138-142 | the definition of the profile; `FontMapAt`, `FontMapByRank`, `FontMapBounds` and `FontMapOrder` state its keys and levels |
| `FontProfile.AnalyzeFontSizes` | test.py:129-142 | the page loop fails iff some character on some page has no size; otherwise it returns the profile of all the document's sizes |
| `FontProfile.NoSizesExtend` | test.py:132-135 | once a page raises, the whole analysis raises |
| `FontProfile.ProfileExample` | test.py:138-142 | the sizes 8, 8, 10, 12, 12, 14, 20 profile as 20→1, 14→2, 12→3, 10→4, 8→5 |
| `HeadingVote.HeadingIffTwoSignals` | test.py:85-102 | a block is a heading iff it has characters, a readable box and at least two of the three signals; its level is the font level capped at 6; the vote raises iff the box is too short |
| `HeadingVote.Classify` | test.py:85-102 | a block without characters is body text; a heading has a level of at most 6 and a box of at least three coordinates; a level-0 heading is centred and upper case |
| `HeadingVote.BlockFragments` | test.py:73-107 | a block emits nothing iff its stripped text is empty or its vote raises; otherwise one fragment: the heading line at the vote's level for a heading, the stripped text plus two spaces for body text |
| `HeadingVote.BlockFragmentsByVote` | test.py:73-107 | a non-blank block with characters and a readable box emits a heading line at `min(level, 6)` iff two of the three signals agree, and its text plus two spaces otherwise; a short box emits nothing; no characters emit the text plus two spaces |
| `HeadingVote.HeadingLine` | test.py:105 | a heading fragment has length `level + |text| + 3` and starts and ends with a newline |
| `HeadingVote.DetectHeading` | test.py:144-164 | `_detect_heading` answers only for a block with characters, a sized first character, a box of at least three coordinates, a page width and a text; the level it returns is the profile's level of the first character's size (0 when absent), heading or not; a level-0 heading is centred and upper case |
| `HeadingVote.NoCharsIsBody` | test01.py:85-107 | a block with text but no characters emits only its text plus two spaces |
| `HeadingVote.BlankEmitsNothing` | test.py:73-75 | a block whose stripped text is empty emits nothing |
| `HeadingVote.CentringBoundary` | test.py:92-93 | centring is strict: a centre 49 from the page centre on either side counts, one 50 away on either side does not; a block without a box is centred |
| `HeadingVote.HeadingLineShape` | test01.py:105 | a heading fragment is `"\n"`, exactly `level` hashes, a space, the text, `"\n"` |
| `HeadingVote.ProfiledHeadingLevel` | test.py:88-102 | under a real profile a heading has 0..5 hashes; it has none iff its size is not among the top five, and then both centring and upper case voted |
| `HeadingVote.DetectAgreesWithInline` | test.py:144-164 | `_detect_heading` gives the inline vote's decision wherever it does not raise; the inline level is its level capped at 6, and its level is the uncapped profile level for every block |
| `HeadingVote.DetectRaisesWithoutChars` | test.py:147 | `_detect_heading` raises on a block without characters |
| `Markdownify.RenderDocxTable` | test.py:36-43 | the `md_table` loop with the separator inserted at index 1 gives `TableLines(t)` |
| `Markdownify.TableLines` | test.py:36-43 | a table gives no lines without rows, otherwise one line per row plus the separator |
| `Markdownify.TableLinesShape` | test01.py:37-43 | a table with rows renders as header, separator with one `---` per column, then the other rows in order; no rows give no lines |
| `Markdownify.TableExample` | test.py:37-43 | the table `A B / 1 2` renders as `\| A \| B \|`, `\| --- \| --- \|`, `\| 1 \| 2 \|` |
| `Markdownify.RenderTableSection` | test.py:45 | each table contributes a blank line, the title, then its lines |
| `Markdownify.AppendDocxTables` | test.py:35-45 | the table loop appends every table's section in order |
| `Markdownify.ConvertParagraphs` | test.py:26-32 | the paragraph loop gives one line per paragraph, or fails at the first bad heading style |
| `Markdownify.ParagraphLine` | test.py:26-32 | a paragraph raises only when its style starts with `Heading`; its line always ends with its text; any other style gives exactly the text |
| `Markdownify.ParagraphFailureSticks` | test.py:26-29 | once a paragraph raises, the whole paragraph list raises |
| `Markdownify.ConvertDocx` | test.py:21-47 | `_convert_docx` writes paragraphs then tables, and raises without writing when a heading style cannot be read |
| `Markdownify.HeadingStyleLevel` | test.py:28-30 | a style `Heading… n` (second word the decimal `n`) gives `n` hashes, a space and the text |
| `Markdownify.HeadingSecondWord` | test.py:28-30 | for a style `w + " " + t` with `w` starting with `Heading`: if `int(t)` reads `n` the line is `n` hashes, a space and the text; if `int(t)` raises, the paragraph raises |
| `Markdownify.StyleWords` | test.py:29 | `split(' ')` of `word + " " + digits` gives the two words |
| `Markdownify.BareHeadingRaises` | test.py:29 | a bare `Heading` style raises (no second word) |
| `Markdownify.ConvertPage` | test.py:60-125 | one page appends the fragments of its blocks and then its tables; a page whose line extraction raises adds nothing |
| `Markdownify.PageFragments` | test.py:60-125 | the definition of a page's fragments (its blocks' fragments, then its tables'); `PageFailureIsolation` states how its failures combine |
| `Markdownify.ProfileFonts` | test.py:54-58 | the profiling `try` gives the document's profile, or the empty map when profiling raises |
| `Markdownify.AppendTables` | test.py:113-121 | the page's table loop appends each rendered table until one raises |
| `Markdownify.ConvertPdf` | test.py:49-127 | `_convert_pdf` writes the fragments of all pages under the document's profile, or under an empty profile when profiling raises |
| `Markdownify.PageFailureIsolation` | test.py:109-125 | a table failure keeps the page's text; a line-extraction failure drops the whole page |
| `Markdownify.TablesFragmentsShape` | test.py:116-119 | a page gives at most one fragment per table, each starting with the PDF table title |
| `Markdownify.TablesFragments` | test.py:114-121 | a page's tables give at most one fragment each |
| `Markdownify.TablesSkipEmpty` | test.py:116-117 | a detected table without rows is passed over and the loop goes on with the next table |
| `Markdownify.TablesAllRendered` | test.py:116-119 | when every table has rows and renders, each gives exactly its titled rendering, in order |
| `Markdownify.TablesStopAtFailure` | test.py:114-121 | the first table that fails to render drops every later table |
| `Markdownify.ConvertExcel` | test.py:166-176 | `_convert_excel` writes the title, then per sheet its name line and its rendering |
| `Markdownify.SaveMd` | test.py:178-185 | the definition of `_save_md` (the content joined by newlines, at the output path); `OutputPathShape` states where that path lies |
| `Markdownify.FormatOf` | test.py:10-19 | no converter is chosen iff the lower-cased extension is not one of `.docx`, `.pdf`, `.xlsx`, `.xls` |
| `Markdownify.Convert` | test.py:8-19 | `convert` raises `UnsupportedFormat` iff the lower-cased extension is not `.docx`/`.pdf`/`.xlsx`/`.xls`; a `.docx` with an unreadable heading style raises `BadHeadingStyle`; otherwise the chosen converter's file is written at the output path |
| `Markdownify.PdfInAnyCase` | test.py:10-15 | `report.PDF` or `report.Pdf` goes to the PDF converter |
| `Markdownify.DotfileUnsupported` | test.py:10-19 | a file named only `.pdf` has no extension and is rejected |
| `Paths.Basename` | test.py:180 | the basename is the slash-free tail after the last `/` |
| `Paths.SplitExt` | test.py:181 | `splitext` gives root and extension that concatenate to the path; the extension is empty or a dot and slash-free, dot-free rest |
| `Paths.JoinPath` | test.py:181 | `os.path.join` keeps an absolute name; otherwise the result is `dir`, one `/` unless `dir` is empty or already ends in one, then the name, and its length is exactly that |
| `Paths.ExtensionOfBasename` | test02.py:71-72 | the extension of the basename is the extension of the whole path |
| `Paths.OutputPathShape` | test.py:180-181 | the output path is exactly `output_dir`, a `/` unless `output_dir` is empty or ends in one, then the basename's stem plus `.md`; its basename is that stem plus `.md` |
| `Paths.OutputPath` | test.py:180-181 | the definition of `os.path.join(output_dir, stem + ".md")`; `OutputPathShape` states its exact form |
| `Paths.SplitWithExtension` | test.py:181 | `splitext` of a stem plus an extension gives back the stem and the extension |
| `Paths.DotfileHasNoExtension` | test.py:10 | `.docx` as a file name has no extension |
| `Paths.BasenameIdempotent` | test.py:180 | basename of a basename is itself |
| `Text.Strip` | test.py:73 | `strip()` removes whitespace at both ends: empty iff all whitespace, otherwise starting and ending with non-whitespace |
| `Text.StripFramed` | test02.py:26 | `strip()` of a text framed by whitespace is exactly its core |
| `Text.StripIdempotent` | test.py:156 | stripping twice is stripping once |
| `Text.Split` | test.py:29 | `split(' ')` parts hold no separator and join back to the text |
| `Text.ParseInt` | test.py:29 | the definition of `int()` on a string (whitespace, optional sign, digits); `ParseDecimal` and `ParseDecimalExact` state that it reads decimals back |
| `Text.SplitJoin` | test.py:39 | splitting a join of separator-free parts gives the parts |
| `Text.ParseDecimal` | test.py:29 | `int()` reads `str(n)` back, also with whitespace around it |
| `Text.ParseDecimalExact` | test02.py:42 | `int(str(n)) == n` (`str` of the page number is used at this line; `int()` is the one at test02.py:15) |
| `Text.RemoveAllAbsent` | test02.py:15 | `replace('Heading', '')` leaves a text without an `H` unchanged |
| `Text.RemoveAll` | test02.py:15 | `replace(pat, '')` never lengthens the text and keeps only characters of the text |
| `Text.IsUpperText` | test.py:96 | the definition of `str.isupper()`: some cased character and no lower-case one; `Classify` and `DetectHeading` state its role in the vote |
| `Text.Lower` | test.py:10 | `lower()` keeps the length and maps exactly the ASCII capitals to their lower-case letters |
| `Utf8.Clean` | test02.py:12 | the cleanup never fails to decode and gives the text without its lone surrogates |
| `Utf8.EncodeIgnore` | test02.py:12 | `encode('utf-8', errors='ignore')` takes at most four bytes per code point; `DecodeEncodeIgnore` states that decoding it gives the encodable code points |
| `Utf8.Decode` | test02.py:12 | `decode('utf-8')` yields at most one character per byte; `DecodeEncodeIgnore` and `SurrogatePatternRejected` state what it accepts |
| `Utf8.DecodeFirstEncode` | test02.py:39 | the strict decoder reads every encoded scalar value back |
| `Utf8.DecodeEncodeIgnore` | test02.py:49 | decoding `encode(errors='ignore')` succeeds and returns exactly the encodable code points in order |
| `Utf8.SurrogatePatternRejected` | test02.py:12 | a surrogate has no valid 3-byte encoding: the decoder rejects the pattern |
| `Utf8.CleanSingle` | test02.py:57 | one code point survives, as itself, iff it is not a surrogate (the cleanup used at this line on each header cell) |
| `Utf8.CleanConcat` | test02.py:49 | cleaning distributes over concatenation |
| `Utf8.CleanKeepsEncodable` | test02.py:39 | text without surrogates comes through unchanged |
| `Utf8.CleanIdempotent` | test02.py:63 | cleaning twice is cleaning once |
| `Utf8.CleanShortensIffSurrogate` | test02.py:26 | the cleanup shortens the text iff it holds a surrogate |
| `DirectConvert.MdFile.Write` | test02.py:16 | a write appends its string to the file and nothing else |
| `DirectConvert.WriteEach` | test02.py:25-27 | a write loop appends `f(x)` for each element in order |
| `DirectConvert.FailureSticks` | test02.py:9-18 | once a paragraph raises, later ones write nothing |
| `DirectConvert.WritesUntilShape` | test02.py:9-18 | the paragraph loop finishes iff no element raises; every write is its element's chunk; it stops exactly at the element that raised |
| `DirectConvert.ParagraphChunk` | test02.py:14-18 | every paragraph chunk ends in a blank line; a style not starting with `Heading` writes exactly the cleaned text and `"\n\n"` |
| `DirectConvert.WriteUntilRaise` | test02.py:9-18 | the paragraph loop (with `ParagraphChunk`) writes exactly the chunks until the first element that raises, and reports whether one did |
| `DirectConvert.WriteTable` | test02.py:22-28 | a table writes its separator, its rows, then `"\n"` |
| `DirectConvert.TableWrites` | test02.py:20-28 | a table writes `len(rows) + 2` lines: the separator for its column count first and a blank line last; `TableWritesOrder` states the rows in between |
| `DirectConvert.WriteTables` | test02.py:20-28 | the table loop writes every table in order |
| `DirectConvert.DocxToMd` | test02.py:6-28 | `docx_to_md` writes the paragraphs and then, if none raised, the tables |
| `DirectConvert.HeadingStyleWrites` | test02.py:14-16 | `Heading 2` and `Heading2` both give two hashes before the cleaned text |
| `DirectConvert.BareHeadingRaises` | test02.py:15 | a bare `Heading` style raises (`int('')`) |
| `DirectConvert.TableWritesOrder` | test02.py:22-28 | a table's writes are the separator first, then each row in order, then `"\n"`: the separator precedes the header row |
| `DirectConvert.TableRowColumns` | test02.py:22-27 | a row with one `\|`-free cell per column has as many columns as the separator |
| `DirectConvert.PageChunk` | test02.py:36-42 | a page with text writes its cleaned text and `"\n\n"`; a page whose text is `None` or empty writes the placeholder for its number; every chunk ends in a blank line |
| `DirectConvert.PdfWritesPlaceholders` | test02.py:34-42 | write `i` of the page loop is page `i`'s cleaned text when it has some, and otherwise the placeholder naming page `i + 1` |
| `DirectConvert.MapIndexed` | test02.py:34 | the page loop's writes are one per page, in page order |
| `DirectConvert.PdfToMd` | test02.py:30-42 | `pdf_to_md` writes exactly one chunk per page in order |
| `DirectConvert.PlaceholderNumber` | test02.py:42 | the placeholder carries the page number counted from 1, which `int()` reads back |
| `DirectConvert.PlaceholdersDistinct` | test02.py:42 | different pages get different placeholders |
| `DirectConvert.Placeholder` | test02.py:42 | the definition of the no-text message; `PlaceholderNumber` and `PlaceholdersDistinct` state its properties |
| `DirectConvert.TxtToMd` | test02.py:44-50 | `txt_to_md` writes every line cleaned, in order, so the file's text grows by exactly the cleaned input |
| `DirectConvert.TxtCopiesCleanedInput` | test02.py:47-50 | the file's text is the cleaned input |
| `DirectConvert.TxtCopiesEncodableInput` | test02.py:45-50 | input without surrogates is copied unchanged |
| `DirectConvert.XlsxToMd` | test02.py:52-65 | `xlsx_to_md` writes the header line, the separator, each data row, then `"\n"` |
| `DirectConvert.XlsxWrites` | test02.py:57-65 | the sheet writes `len(rows) + 3` lines: the header line, the separator with one column per header cell, data row `k` as line `k + 2`, and a blank line last |
| `DirectConvert.RowLineColumns` | test02.py:64 | a row of `\|`-free cells has one more bar than cells |
| `DirectConvert.XlsxSeparatorMatchesHeader` | test02.py:57-60 | the separator has as many columns as the header |
| `DirectConvert.SeparatorColumns` | test02.py:23 | a separator for `n` columns has `n + 1` bars |
| `DirectConvert.KindOf` | test02.py:75-82 | a converter is chosen iff the lower-cased extension is one of `.docx`, `.pdf`, `.txt`, `.xlsx`; such extensions have four or five characters |
| `DirectConvert.TxtInAnyCase` | test02.py:79-80 | `notes.TXT`, `notes.Txt` and every other casing of `.txt` go to the text converter |
| `DirectConvert.ConvertFile` | test02.py:67-87 | `convert_file` creates no file iff the lower-cased extension is not `.docx`/`.pdf`/`.txt`/`.xlsx`; otherwise it creates a fresh file at the output path holding exactly what that converter writes, and flags a raise |
| `DirectConvert.KindWrites` | test02.py:75-82 | only the `.docx` converter can raise; the `.pdf` converter writes one chunk per page; the `.txt` converter writes exactly the cleaned input text |
| `DirectConvert.DotfileNotConverted` | test02.py:71-85 | a file named only `.txt` is not converted |
| `DirectConvert.ScriptsDispatchAlike` | test02.py:71-82 | both scripts send `.docx` and `.pdf` to the same converters; only this one takes `.txt`; of the spreadsheets it takes `.xlsx` but not `.xls` |

## Left out

- The document libraries (pdfplumber, python-docx, PyPDF2, openpyxl) are not modelled. What they extract (pages, text lines, characters, boxes, tables, paragraphs, sheet rows) is an input record.
- pandas `DataFrame(...).to_markdown` and `ExcelFile` are not modelled. A PDF table's rendering is a function parameter `render` (`None` when it raises), and a sheet's rendering is an input string. The padding and layout of those tables are not specified.
- `os.path` is modelled as `posixpath`: Windows paths (`ntpath`, with backslashes and drive letters) are not part of this model.
- File I/O is left out: opening, writing and encoding the output, `os.makedirs`, `os.path.exists`, and the `print` messages. `_save_md`'s file is a value. The direct converters' file is an `MdFile` that records its writes; it is created fresh and never aliased.
- The `__main__` example blocks are not part of the model.
- Font sizes and coordinates are `real`, not IEEE doubles. Rounding, NaN and the float equality of the `font_size_map` lookup are not modelled.
- `Text.Lower` and `Text.IsUpperText` use ASCII letter casing only. `str.lower()` and `str.isupper()` on non-ASCII letters are not modelled. `int()` accepts ASCII digits only, not other Unicode decimal digits.
- `txt_to_md` takes the file already split into lines. The universal-newline reading and line splitting of the text-mode file are left out, along with the `UnicodeDecodeError` that strict reading raises on invalid input.
- `xlsx_to_md` takes the `str()` of each cell value as input. The formatting of numbers, dates and `None` by `str()` is left out. So is the behaviour of `sheet[1]` on an empty sheet.
- Style names are Dafny strings. A style name holding a lone surrogate cannot be represented.
- Exceptions are not propagated as such. A conversion that raises part-way is an `Err` holding what was already written (direct converters) or a conversion error before anything is written (`MarkdownifyMCP`).
- In `_convert_pdf`, a failing `extract_text_lines` also drops the page's tables, because the table `try` sits inside the page's `try`. The model follows the code here.
- `PdfLayout` carries only the fields the converters read. A missing entry of a line record (`text`, `bbox`, `chars`) or of a character record (`size`) is `None` or empty.

=== FILE: direct_convert.dfy ===
/** The direct converters of the second script: each opens the output file and writes
    Markdown into it piece by piece, cleaning every text with the UTF-8 round trip first.
    The output file is an object whose state is the list of strings written to it. */
module DirectConvert {
  import opened Wrappers
  import opened Text
  import opened Paths
  import opened Utf8
  import Markdownify

  /** The open output file: its path and every string written to it so far. What is written
      has been cleaned, so it is a Dafny `string` and encoding the file as UTF-8 cannot fail. */
  class MdFile {
    const path: string
    var writes: seq<string>

    constructor (path: string)
      ensures this.path == path && writes == []
    {
      this.path := path;
      writes := [];
    }

    /** `md_file.write(s)`. */
    method Write(s: string)
      modifies this
      ensures writes == old(writes) + [s]
    {
      writes := writes + [s];
    }

    /** The text of the file. */
    function Contents(): string
      reads this
    {
      Concat(writes)
    }
  }

  /** A loop that writes `f(x)` for each `x` of `xs`, in order. */
  method WriteEach<X>(file: MdFile, xs: seq<X>, f: X -> string)
    modifies file
    ensures file.writes == old(file.writes) + MapSeq(xs, f)
  {
    ghost var w0 := file.writes;
    for i := 0 to |xs|
      invariant file.writes == w0 + MapSeq(xs[..i], f)
    {
      assert xs[..i + 1][..i] == xs[..i];
      AppendAssoc(w0, MapSeq(xs[..i], f), [f(xs[i])]);
      file.Write(f(xs[i]));
    }
    assert xs[..|xs|] == xs;
  }

  /** What a loop writes that writes `f(x)` for each `x` of `xs` until `f` raises (`None`):
      `Ok` with every write, or `Err` with the writes made before the element that raised. */
  function WritesUntil<X>(xs: seq<X>, f: X -> Option<string>): Result<seq<string>, seq<string>> {
    if xs == [] then Ok([])
    else
      match WritesUntil(xs[..|xs| - 1], f)
      case Err(w) => Err(w)
      case Ok(w) =>
        match f(xs[|xs| - 1])
        case None => Err(w)
        case Some(chunk) => Ok(w + [chunk])
  }

  /** What is in the file once such a loop has returned or raised. */
  function Written(r: Result<seq<string>, seq<string>>): seq<string> {
    match r
    case Ok(w) => w
    case Err(w) => w
  }

  /** Once an element has raised, later elements change nothing. */
  lemma {:induction false} FailureSticks<X>(xs: seq<X>, f: X -> Option<string>, k: nat)
    requires k <= |xs| && WritesUntil(xs[..k], f).Err?
    ensures WritesUntil(xs, f) == WritesUntil(xs[..k], f)
    decreases |xs|
  {
    if k < |xs| {
      var init := xs[..|xs| - 1];
      assert init[..k] == xs[..k];
      FailureSticks(init, f, k);
    } else {
      assert xs[..k] == xs;
    }
  }

  /** One more element that does not raise adds its write at the end. */
  lemma WritesUntilStep<X>(xs: seq<X>, f: X -> Option<string>, i: nat)
    requires i < |xs| && WritesUntil(xs[..i], f).Ok? && f(xs[i]).Some?
    ensures WritesUntil(xs[..i + 1], f) == Ok(WritesUntil(xs[..i], f).value + [f(xs[i]).value])
  {
    assert xs[..i + 1][..i] == xs[..i];
  }

  /** The loop writes one string per element, in order, when no element raises; otherwise
      the file holds exactly the writes for the elements before the first one that raised. */
  lemma {:induction false} WritesUntilShape<X>(xs: seq<X>, f: X -> Option<string>)
    ensures WritesUntil(xs, f).Ok? <==> forall i :: 0 <= i < |xs| ==> f(xs[i]).Some?
    ensures var w := Written(WritesUntil(xs, f));
      && |w| <= |xs|
      && (forall i :: 0 <= i < |w| ==> f(xs[i]) == Some(w[i]))
      && (WritesUntil(xs, f).Err? ==> f(xs[|w|]).None?)
      && (WritesUntil(xs, f).Ok? ==> |w| == |xs|)
  {
    if xs != [] {
      var init := xs[..|xs| - 1];
      WritesUntilShape(init, f);
      assert forall i :: 0 <= i < |init| ==> init[i] == xs[i];
    }
  }

  /** `'| ' + ' | '.join(cells) + ' |\n'`. */
  function RowLine(cells: seq<string>): string {
    "| " + Join(" | ", cells) + " |\n"
  }

  /** The separator row: one `---` per column. */
  function SeparatorLine(columns: nat): string {
    RowLine(Repeat("---", columns))
  }

  // ---------------------------------------------------------------------------
  // docx_to_md

  /** A paragraph: its style name (only inspected and parsed, never written) and its text. */
  datatype Paragraph = Paragraph(styleName: string, text: PyStr)

  /** A table: its number of columns and the text of each cell, row by row. */
  datatype Table = Table(columnCount: nat, rows: seq<seq<PyStr>>)

  datatype Document = Document(paragraphs: seq<Paragraph>, tables: seq<Table>)

  /** What one paragraph writes: a heading line with `int(style.replace('Heading', ''))`
      hashes (none for a level below one) when the style starts with `Heading`, the text
      otherwise, each followed by a blank line; `None` where `int()` raises `ValueError`. */
  function ParagraphChunk(p: Paragraph): (r: Option<string>)
    ensures r.Some? ==> |r.value| >= 2 && r.value[|r.value| - 2..] == "\n\n"
    ensures !StartsWith(p.styleName, "Heading") ==> r == Some(Clean(p.text) + "\n\n")
  {
    var clean := Clean(p.text);
    if StartsWith(p.styleName, "Heading") then
      match ParseInt(RemoveAll(p.styleName, "Heading"))
      case None => None
      case Some(level) => Some(Repeat('#', level) + " " + clean + "\n\n")
    else Some(clean + "\n\n")
  }

  /** A cell's text, stripped and cleaned. */
  function CellText(cell: PyStr): string {
    Clean(Strip(cell, IsSpaceCode))
  }

  /** A table row line. */
  function DocxRowLine(cells: seq<PyStr>): string {
    RowLine(MapSeq(cells, CellText))
  }

  /** What one table writes: the separator, then one line per row (the header row is the
      first of them), then a blank line. */
  function TableWrites(t: Table): (r: seq<string>)
    ensures |r| == |t.rows| + 2
    ensures r[0] == SeparatorLine(t.columnCount)
    ensures r[|r| - 1] == "\n"
  {
    [SeparatorLine(t.columnCount)] + MapSeq(t.rows, DocxRowLine) + ["\n"]
  }

  /** Everything `docx_to_md` writes: the paragraphs until one raises, then, if none did,
      the tables. */
  function DocxWrites(doc: Document): Result<seq<string>, seq<string>> {
    match WritesUntil(doc.paragraphs, ParagraphChunk)
    case Err(w) => Err(w)
    case Ok(w) => Ok(w + ConcatMap(doc.tables, TableWrites))
  }

  /** `docx_to_md`: the paragraphs, then the tables. `false` when a heading style raised. */
  method DocxToMd(file: MdFile, doc: Document) returns (ok: bool)
    modifies file
    ensures ok == DocxWrites(doc).Ok?
    ensures file.writes == old(file.writes) + Written(DocxWrites(doc))
  {
    ghost var w0 := file.writes;
    ok := WriteUntilRaise(file, doc.paragraphs, ParagraphChunk);
    if ok {
      ghost var w := WritesUntil(doc.paragraphs, ParagraphChunk).value;
      WriteTables(file, doc.tables);
      AppendAssoc(w0, w, ConcatMap(doc.tables, TableWrites));
    }
  }

  /** A loop that writes `f(x)` for each `x` of `xs` and stops at the first `x` for which
      `f` raises; `false` when one did. The paragraph loop of `docx_to_md` is this loop
      with `ParagraphChunk`. */
  method WriteUntilRaise<X>(file: MdFile, xs: seq<X>, f: X -> Option<string>) returns (ok: bool)
    modifies file
    ensures ok == WritesUntil(xs, f).Ok?
    ensures file.writes == old(file.writes) + Written(WritesUntil(xs, f))
  {
    ghost var w0 := file.writes;
    for i := 0 to |xs|
      invariant WritesUntil(xs[..i], f).Ok?
      invariant file.writes == w0 + WritesUntil(xs[..i], f).value
    {
      var chunk := f(xs[i]);
      if chunk.None? {
        assert xs[..i + 1][..i] == xs[..i];
        FailureSticks(xs, f, i + 1);
        return false;
      }
      WritesUntilStep(xs, f, i);
      AppendAssoc(w0, WritesUntil(xs[..i], f).value, [chunk.value]);
      file.Write(chunk.value);
    }
    assert xs[..|xs|] == xs;
    return true;
  }

  /** The table loop of `docx_to_md`. */
  method WriteTables(file: MdFile, tables: seq<Table>)
    modifies file
    ensures file.writes == old(file.writes) + ConcatMap(tables, TableWrites)
  {
    ghost var w0 := file.writes;
    for t := 0 to |tables|
      invariant file.writes == w0 + ConcatMap(tables[..t], TableWrites)
    {
      assert tables[..t + 1][..t] == tables[..t];
      AppendAssoc(w0, ConcatMap(tables[..t], TableWrites), TableWrites(tables[t]));
      WriteTable(file, tables[t]);
    }
    assert tables[..|tables|] == tables;
  }

  /** One table: the separator, its rows, a blank line. */
  method WriteTable(file: MdFile, t: Table)
    modifies file
    ensures file.writes == old(file.writes) + TableWrites(t)
  {
    ghost var w0 := file.writes;
    var separator := SeparatorLine(t.columnCount);
    file.Write(separator);
    WriteEach(file, t.rows, DocxRowLine);
    var lines := MapSeq(t.rows, DocxRowLine);
    AppendAssoc(w0, [separator], lines);
    AppendAssoc(w0, [separator] + lines, ["\n"]);
    file.Write("\n");
  }

  /** A style `Heading` followed by optional whitespace and a number (`Heading 2`, and
      also `Heading2`) writes that many hashes before the cleaned text. */
  lemma HeadingStyleWrites(space: string, n: nat, text: PyStr)
    requires AllSpace(space, IsSpace)
    ensures ParagraphChunk(Paragraph("Heading" + space + Decimal(n), text))
      == Some(Repeat('#', n) + " " + Clean(text) + "\n\n")
  {
    var d := Decimal(n);
    var rest := space + d;
    var style := "Heading" + space + d;
    AppendAssoc("Heading", space, d);
    assert style[..7] == "Heading";
    assert style[7..] == rest;
    assert 'H' !in rest by {
      forall i | 0 <= i < |rest| ensures rest[i] != 'H' {
        if i < |space| { assert rest[i] == space[i]; } else { assert rest[i] == d[i - |space|]; }
      }
    }
    RemoveAllAbsent(rest, "Heading");
    ParseDecimal(space, n, []);
    assert space + d + [] == rest;
  }

  /** A bare `Heading` style leaves `int('')`, which raises. */
  lemma BareHeadingRaises(text: PyStr)
    ensures ParagraphChunk(Paragraph("Heading", text)).None?
  {
    assert RemoveAll("Heading", "Heading") == [] by {
      assert "Heading"[..7] == "Heading";
    }
  }

  /** Each table is written as its separator, then its rows, then a blank line, so the
      separator comes before the header row. */
  lemma TableWritesOrder(t: Table)
    ensures |TableWrites(t)| == |t.rows| + 2
    ensures TableWrites(t)[0] == SeparatorLine(t.columnCount)
    ensures forall r :: 0 <= r < |t.rows| ==> TableWrites(t)[r + 1] == DocxRowLine(t.rows[r])
    ensures TableWrites(t)[|t.rows| + 1] == "\n"
  {
  }

  /** When a row has one cell per column and no cell text holds a `|`, its line has as many
      columns as the separator written before the table. */
  lemma TableRowColumns(t: Table, r: nat)
    requires r < |t.rows| && |t.rows[r]| == t.columnCount > 0
    requires forall i :: 0 <= i < |t.rows[r]| ==> Bars(CellText(t.rows[r][i])) == 0
    ensures Bars(DocxRowLine(t.rows[r])) == Bars(SeparatorLine(t.columnCount)) == t.columnCount + 1
  {
    RowLineColumns(MapSeq(t.rows[r], CellText));
    SeparatorColumns(t.columnCount);
  }

  // ---------------------------------------------------------------------------
  // pdf_to_md

  /** The placeholder for a page without text, numbered from 1. */
  function Placeholder(pageNum: nat): string {
    "Page " + Decimal(pageNum + 1) + " has no extractable text.\n\n"
  }

  /** What one page writes, given `page.extract_text()` (`None` or the text): the cleaned
      text and a blank line, or the placeholder when the text is `None` or empty. */
  function PageChunk(pageNum: nat, text: Option<PyStr>): (r: string)
    ensures |r| >= 2 && r[|r| - 2..] == "\n\n"
    ensures text.None? || text.value == [] ==> r == Placeholder(pageNum)
    ensures text.Some? && text.value != [] ==> r == Clean(text.value) + "\n\n"
  {
    if text.Some? && text.value != [] then Clean(text.value) + "\n\n" else Placeholder(pageNum)
  }

  /** What the page loop writes: one chunk per page, the page number counted from 0. */
  function PdfWrites(pages: seq<Option<PyStr>>): seq<string> {
    MapIndexed(pages, PageChunk)
  }

  /** `[f(i, x) for i, x in enumerate(xs)]`. */
  function MapIndexed<X>(xs: seq<X>, f: (nat, X) -> string): (r: seq<string>)
    ensures |r| == |xs|
    ensures forall i :: 0 <= i < |xs| ==> r[i] == f(i, xs[i])
  {
    if xs == [] then [] else MapIndexed(xs[..|xs| - 1], f) + [f(|xs| - 1, xs[|xs| - 1])]
  }

  /** Page `i` (counted from 0) writes its cleaned text when it has some, and otherwise the
      placeholder that names it as page `i + 1`. */
  lemma PdfWritesPlaceholders(pages: seq<Option<PyStr>>)
    ensures |PdfWrites(pages)| == |pages|
    ensures forall i :: 0 <= i < |pages| && (pages[i].None? || pages[i].value == []) ==>
      PdfWrites(pages)[i] == Placeholder(i)
    ensures forall i :: 0 <= i < |pages| && pages[i].Some? && pages[i].value != [] ==>
      PdfWrites(pages)[i] == Clean(pages[i].value) + "\n\n"
  {
  }

  /** `pdf_to_md`: one write per page, in page order. */
  method PdfToMd(file: MdFile, pages: seq<Option<PyStr>>)
    modifies file
    ensures file.writes == old(file.writes) + PdfWrites(pages)
  {
    ghost var w0 := file.writes;
    for pageNum := 0 to |pages|
      invariant file.writes == w0 + MapIndexed(pages[..pageNum], PageChunk)
    {
      assert pages[..pageNum + 1][..pageNum] == pages[..pageNum];
      var text := pages[pageNum];
      var chunk;
      if text.Some? && text.value != [] {
        chunk := Clean(text.value) + "\n\n";
      } else {
        chunk := Placeholder(pageNum);
      }
      assert chunk == PageChunk(pageNum, text);
      AppendAssoc(w0, MapIndexed(pages[..pageNum], PageChunk), [chunk]);
      file.Write(chunk);
    }
    assert pages[..|pages|] == pages;
  }

  /** The placeholder names its page: after `Page ` come the decimal digits of the page
      number counted from 1, then a space, and `int()` reads that number back. */
  lemma PlaceholderNumber(pageNum: nat)
    ensures Placeholder(pageNum)[5..5 + |Decimal(pageNum + 1)|] == Decimal(pageNum + 1)
    ensures Placeholder(pageNum)[5 + |Decimal(pageNum + 1)|] == ' '
    ensures ParseInt(Decimal(pageNum + 1)) == Some(pageNum + 1)
  {
    FramedNumber("Page ", pageNum + 1, " has no extractable text.\n\n");
    ParseDecimalExact(pageNum + 1);
  }

  /** Where a number written between a head and a tail sits. */
  lemma FramedNumber(head: string, n: nat, tail: string)
    requires tail != []
    ensures (head + Decimal(n) + tail)[|head|..|head| + |Decimal(n)|] == Decimal(n)
    ensures (head + Decimal(n) + tail)[|head| + |Decimal(n)|] == tail[0]
  {
    var d := Decimal(n);
    AppendAssoc(head, d, tail);
    assert (head + (d + tail))[|head|..|head| + |d|] == (d + tail)[..|d|];
  }

  /** Different pages get different placeholders. */
  lemma PlaceholdersDistinct(i: nat, j: nat)
    requires i != j
    ensures Placeholder(i) != Placeholder(j)
  {
    PlaceholderNumber(i);
    PlaceholderNumber(j);
  }

  // ---------------------------------------------------------------------------
  // txt_to_md

  /** `txt_to_md`: each line of the input, cleaned, in order. */
  method TxtToMd(file: MdFile, lines: seq<PyStr>)
    modifies file
    ensures file.writes == old(file.writes) + MapSeq(lines, Clean)
    ensures file.Contents() == old(file.Contents()) + Clean(Concat(lines))
  {
    WriteEach(file, lines, Clean);
    ConcatAppend(old(file.writes), MapSeq(lines, Clean));
    TxtCopiesCleanedInput(lines);
  }

  /** The text file's copy is the cleaned input: cleaning line by line cleans the whole. */
  lemma {:induction false} TxtCopiesCleanedInput(lines: seq<PyStr>)
    ensures Concat(MapSeq(lines, Clean)) == Clean(Concat(lines))
  {
    if lines != [] {
      var init := lines[..|lines| - 1];
      TxtCopiesCleanedInput(init);
      assert MapSeq(lines, Clean) == MapSeq(init, Clean) + [Clean(lines[|lines| - 1])];
      CleanConcat(Concat(init), lines[|lines| - 1]);
    }
  }

  /** A text without surrogates (as any file read with strict UTF-8 decoding is) is copied
      unchanged. */
  lemma TxtCopiesEncodableInput(lines: seq<PyStr>)
    requires forall i :: 0 <= i < |Concat(lines)| ==> !IsSurrogate(Concat(lines)[i])
    ensures Codes(Concat(MapSeq(lines, Clean))) == Concat(lines)
  {
    TxtCopiesCleanedInput(lines);
    CleanKeepsEncodable(Concat(lines));
  }

  // ---------------------------------------------------------------------------
  // xlsx_to_md

  /** A row of `str(value)` texts, each cleaned. */
  function XlsxRowLine(values: seq<PyStr>): string {
    RowLine(MapSeq(values, Clean))
  }

  /** What `xlsx_to_md` writes for the active sheet's first row and the rows after it: the
      header line, a separator with one `---` per header cell, one line per data row, and a
      blank line. */
  function XlsxWrites(header: seq<PyStr>, rows: seq<seq<PyStr>>): (r: seq<string>)
    ensures |r| == |rows| + 3
    ensures r[0] == XlsxRowLine(header)
    ensures r[1] == SeparatorLine(|header|)
    ensures forall k :: 0 <= k < |rows| ==> r[k + 2] == XlsxRowLine(rows[k])
    ensures r[|r| - 1] == "\n"
  {
    var lines := MapSeq(rows, XlsxRowLine);
    assert forall k :: 0 <= k < |rows| ==> lines[k] == XlsxRowLine(rows[k]);
    [XlsxRowLine(header), SeparatorLine(|header|)] + lines + ["\n"]
  }

  method XlsxToMd(file: MdFile, header: seq<PyStr>, rows: seq<seq<PyStr>>)
    modifies file
    ensures file.writes == old(file.writes) + XlsxWrites(header, rows)
  {
    ghost var w0 := file.writes;
    var headers := MapSeq(header, Clean);
    var headerLine := RowLine(headers);
    var separator := RowLine(Repeat("---", |headers|));
    file.Write(headerLine);
    file.Write(separator);
    ghost var top := [headerLine, separator];
    assert file.writes == w0 + top;
    WriteEach(file, rows, XlsxRowLine);
    var lines := MapSeq(rows, XlsxRowLine);
    AppendAssoc(w0, top, lines);
    AppendAssoc(w0, top + lines, ["\n"]);
    file.Write("\n");
  }

  /** The number of `|` characters in `s`. */
  function Bars(s: string): nat {
    multiset(s)['|']
  }

  /** A row line of cells without `|` has one more bar than it has cells: a Markdown
      table row with that many columns. */
  lemma RowLineColumns(cells: seq<string>)
    requires cells != []
    requires forall i :: 0 <= i < |cells| ==> Bars(cells[i]) == 0
    ensures Bars(RowLine(cells)) == |cells| + 1
  {
    JoinBars(cells);
    var j := Join(" | ", cells);
    assert multiset("| " + j + " |\n") == multiset("| ") + multiset(j) + multiset(" |\n");
  }

  lemma {:induction false} JoinBars(cells: seq<string>)
    requires cells != []
    requires forall i :: 0 <= i < |cells| ==> Bars(cells[i]) == 0
    ensures Bars(Join(" | ", cells)) == |cells| - 1
  {
    if |cells| > 1 {
      JoinBars(cells[1..]);
      var rest := Join(" | ", cells[1..]);
      assert multiset(cells[0] + " | " + rest) == multiset(cells[0]) + multiset(" | ") + multiset(rest);
    }
  }

  /** When no header text holds a `|`, the separator has as many columns as the header. */
  lemma XlsxSeparatorMatchesHeader(header: seq<PyStr>)
    requires header != []
    requires forall i :: 0 <= i < |header| ==> Bars(Clean(header[i])) == 0
    ensures Bars(XlsxRowLine(header)) == Bars(SeparatorLine(|header|)) == |header| + 1
  {
    RowLineColumns(MapSeq(header, Clean));
    SeparatorColumns(|header|);
  }

  /** A separator for `n` columns has `n + 1` bars. */
  lemma SeparatorColumns(n: nat)
    requires n > 0
    ensures Bars(SeparatorLine(n)) == n + 1
  {
    assert Bars("---") == 0;
    RowLineColumns(Repeat("---", n));
  }

  // ---------------------------------------------------------------------------
  // convert_file

  datatype Kind = Docx | Pdf | Txt | Xlsx

  /** The converter `convert_file` picks for an extension, compared after `lower()`. */
  function KindOf(ext: string): (r: Option<Kind>)
    ensures r.Some? <==> Lower(ext) in {".docx", ".pdf", ".txt", ".xlsx"}
    ensures r.Some? ==> |ext| in {4, 5}
  {
    KindOfLowered(Lower(ext))
  }

  /** The kind an already lower-cased extension names. */
  function KindOfLowered(e: string): Option<Kind> {
    if e == ".docx" then Some(Docx)
    else if e == ".pdf" then Some(Pdf)
    else if e == ".txt" then Some(Txt)
    else if e == ".xlsx" then Some(Xlsx)
    else None
  }

  /** What the input file holds, as the library for its kind reads it. */
  datatype Input = Input(
    doc: Document,
    pages: seq<Option<PyStr>>,
    lines: seq<PyStr>,
    header: seq<PyStr>,
    rows: seq<seq<PyStr>>)

  /** What the converter for `kind` leaves in the output file. */
  function KindWrites(kind: Kind, input: Input): (r: Result<seq<string>, seq<string>>)
    ensures r.Err? ==> kind == Docx
    ensures kind == Pdf ==> r.Ok? && |r.value| == |input.pages|
    ensures kind == Txt ==> r.Ok? && Concat(r.value) == Clean(Concat(input.lines))
  {
    TxtCopiesCleanedInput(input.lines);
    match kind
    case Docx => DocxWrites(input.doc)
    case Pdf => Ok(PdfWrites(input.pages))
    case Txt => Ok(MapSeq(input.lines, Clean))
    case Xlsx => Ok(XlsxWrites(input.header, input.rows))
  }

  /** `convert_file`: picks the converter from the extension of the input's file name and
      writes to `output_dir/<stem>.md`. An unsupported extension returns without creating a
      file (`null`); `raised` is set when the converter raised part-way. */
  method ConvertFile(inputPath: string, outputDir: string, input: Input) returns (file: MdFile?, raised: bool)
    ensures file == null <==> KindOf(Extension(Basename(inputPath))).None?
    ensures file == null ==> !raised
    ensures file != null ==>
      var r := KindWrites(KindOf(Extension(Basename(inputPath))).value, input);
      && fresh(file)
      && file.path == OutputPath(inputPath, outputDir)
      && file.writes == Written(r)
      && raised == r.Err?
  {
    var fileName := Basename(inputPath);
    var (baseName, ext) := SplitExt(fileName);
    var outputPath := JoinPath(outputDir, baseName + ".md");
    var kind := KindOf(ext);
    if kind.None? {
      return null, false;
    }
    file := new MdFile(outputPath);
    raised := false;
    match kind.value {
      case Docx =>
        var ok := DocxToMd(file, input.doc);
        raised := !ok;
      case Pdf =>
        PdfToMd(file, input.pages);
      case Txt =>
        TxtToMd(file, input.lines);
      case Xlsx =>
        XlsxToMd(file, input.header, input.rows);
    }
  }

  /** The dispatch ignores the case of the extension: `notes.TXT` is converted as text. */
  lemma TxtInAnyCase(stem: string, ext: string)
    requires '/' !in stem && HasNonDot(stem, 0, |stem|)
    requires |ext| == 4 && ext[0] == '.' && Lower(ext) == ".txt"
    ensures KindOf(Extension(Basename(stem + ext))) == Some(Txt)
  {
    TxtExtensionChars(ext);
    ExtensionOfFileName(stem, ext);
    TxtKind(ext);
  }

  lemma TxtKind(ext: string)
    requires Lower(ext) == ".txt"
    ensures KindOf(ext) == Some(Txt)
  {
    assert KindOfLowered(".txt") == Some(Txt);
  }

  /** An extension that lower-cases to `.txt` holds no further dot and no slash. */
  lemma TxtExtensionChars(ext: string)
    requires |ext| == 4 && Lower(ext) == ".txt"
    ensures '.' !in ext[1..] && '/' !in ext
  {
    forall i | 0 <= i < 4 ensures ext[i] != '/' && (i > 0 ==> ext[i] != '.') {
      assert Lower(ext)[i] == ".txt"[i];
    }
  }

  /** A file name made of a stem and an extension has that extension. */
  lemma ExtensionOfFileName(stem: string, ext: string)
    requires '/' !in stem && HasNonDot(stem, 0, |stem|)
    requires |ext| > 0 && ext[0] == '.' && '.' !in ext[1..] && '/' !in ext
    ensures Extension(Basename(stem + ext)) == ext
  {
    SplitWithExtension(stem, ext);
    ExtensionOfBasename(stem + ext);
  }

  /** A file name that is only a dot and an extension (`.txt`) is a dotfile: it has no
      extension and is not converted. */
  lemma DotfileNotConverted(dir: string, name: string)
    requires |name| > 0 && name[0] == '.' && '.' !in name[1..] && '/' !in name
    ensures KindOf(Extension(Basename(dir + "/" + name))).None?
  {
    ExtensionOfBasename(dir + "/" + name);
    DotfileHasNoExtension(dir, name);
  }

  /** The two scripts route a path alike, although this one takes the extension of the
      basename and the other that of the whole path: both send `.docx` and `.pdf` (in any
      case) to their converters; only this one takes `.txt`, and of the spreadsheets it
      takes `.xlsx` but not `.xls`. */
  lemma ScriptsDispatchAlike(inputPath: string)
    ensures KindOf(Extension(Basename(inputPath))) == Some(Docx) <==>
      Markdownify.FormatOf(inputPath) == Some(Markdownify.DocxFormat)
    ensures KindOf(Extension(Basename(inputPath))) == Some(Pdf) <==>
      Markdownify.FormatOf(inputPath) == Some(Markdownify.PdfFormat)
    ensures KindOf(Extension(Basename(inputPath))) == Some(Txt) ==> Markdownify.FormatOf(inputPath).None?
    ensures KindOf(Extension(Basename(inputPath))) == Some(Xlsx) ==>
      Markdownify.FormatOf(inputPath) == Some(Markdownify.ExcelFormat)
    ensures (Markdownify.FormatOf(inputPath) == Some(Markdownify.ExcelFormat) &&
             KindOf(Extension(Basename(inputPath))).None?) <==> Lower(Extension(inputPath)) == ".xls"
  {
    ExtensionOfBasename(inputPath);
    LoweredDispatchAlike(Lower(Extension(inputPath)));
  }

  lemma LoweredDispatchAlike(e: string)
    ensures KindOfLowered(e) == Some(Docx) <==> Markdownify.FormatOfLowered(e) == Some(Markdownify.DocxFormat)
    ensures KindOfLowered(e) == Some(Pdf) <==> Markdownify.FormatOfLowered(e) == Some(Markdownify.PdfFormat)
    ensures KindOfLowered(e) == Some(Txt) ==> Markdownify.FormatOfLowered(e).None?
    ensures KindOfLowered(e) == Some(Xlsx) ==> Markdownify.FormatOfLowered(e) == Some(Markdownify.ExcelFormat)
    ensures (Markdownify.FormatOfLowered(e) == Some(Markdownify.ExcelFormat) && KindOfLowered(e).None?) <==>
            e == ".xls"
  {
  }
}

=== FILE: font_profile.dfy ===
/** The font-size profiler of the PDF converter (`_analyze_font_sizes`): the five largest
    distinct font sizes of a document become heading levels 1 to 5, largest first. */
module FontProfile {
  import opened Wrappers
  import opened PdfLayout

  /** From a font size to the heading level it stands for. */
  type FontSizeMap = map<real, nat>

  /** How many of the largest distinct sizes become heading sizes. */
  const HeadingSizes: nat := 5

  /** The deepest Markdown heading level. */
  const DeepestLevel: nat := 6

  function Min(a: int, b: int): int {
    if a <= b then a else b
  }

  predicate StrictlyDescending(u: seq<real>) {
    forall i, j :: 0 <= i < j < |u| ==> u[i] > u[j]
  }

  /** Puts `x` into a strictly descending list, unless it is already there. */
  function InsertDescending(x: real, u: seq<real>): (r: seq<real>)
    requires StrictlyDescending(u)
    ensures StrictlyDescending(r)
    ensures forall y :: y in r <==> y == x || y in u
  {
    if u == [] then [x]
    else if x > u[0] then [x] + u
    else if x == u[0] then u
    else
      var rest := InsertDescending(x, u[1..]);
      assert forall y :: y in u <==> y == u[0] || y in u[1..] by {
        assert u == [u[0]] + u[1..];
      }
      assert forall k :: 0 <= k < |rest| ==> rest[k] < u[0] by {
        forall k | 0 <= k < |rest| ensures rest[k] < u[0] {
          assert rest[k] in rest;
        }
      }
      [u[0]] + rest
  }

  /** `sorted(set(sizes), reverse=True)`: every size once, largest first. */
  function DistinctDescending(sizes: seq<real>): (u: seq<real>)
    ensures StrictlyDescending(u)
    ensures forall y :: y in u <==> y in sizes
  {
    if sizes == [] then []
    else
      var init := sizes[..|sizes| - 1];
      assert sizes == init + [sizes[|sizes| - 1]];
      InsertDescending(sizes[|sizes| - 1], DistinctDescending(init))
  }

  /** The dictionary comprehension of `_analyze_font_sizes`: the i-th largest of the top
      five distinct sizes gets level `min(i + 1, 6)`. */
  function FontMap(sizes: seq<real>): FontSizeMap {
    Levels(TopSizes(sizes))
  }

  /** `unique_sizes[:5]`: the five largest distinct sizes, or all of them when fewer. */
  function TopSizes(sizes: seq<real>): seq<real> {
    var u := DistinctDescending(sizes);
    u[..Min(|u|, HeadingSizes)]
  }

  /** `{size: min(i + 1, 6) for i, size in enumerate(top)}`, entry by entry. */
  function Levels(top: seq<real>): FontSizeMap {
    if top == [] then map[]
    else Levels(top[..|top| - 1])[top[|top| - 1] := Min(|top|, DeepestLevel)]
  }

  /** The number of distinct sizes in the document that are larger than `s`. */
  function Rank(sizes: seq<real>, s: real): nat {
    |set t | t in sizes && t > s|
  }

  lemma {:induction false} DistinctCount(v: seq<real>)
    requires StrictlyDescending(v)
    ensures |set t | t in v| == |v|
  {
    if v != [] {
      DescendingTail(v);
      DistinctCount(v[1..]);
      SetOfCons(v);
    }
  }

  lemma SetOfCons(v: seq<real>)
    requires v != []
    ensures (set t | t in v) == {v[0]} + (set t | t in v[1..])
  {
    assert v == [v[0]] + v[1..];
  }

  /** In the sorted list, the size at position `j` has exactly `j` larger sizes. */
  lemma RankIsPosition(sizes: seq<real>, j: nat)
    requires j < |DistinctDescending(sizes)|
    ensures Rank(sizes, DistinctDescending(sizes)[j]) == j
  {
    var u := DistinctDescending(sizes);
    LargerPrefix(u, j);
    assert (set t | t in sizes && t > u[j]) == (set t | t in u && t > u[j]);
    DistinctCount(u[..j]);
  }

  /** In a strictly descending list, the entries larger than the one at `j` are the first `j`. */
  lemma LargerPrefix(u: seq<real>, j: nat)
    requires StrictlyDescending(u) && j < |u|
    ensures StrictlyDescending(u[..j])
    ensures (set t | t in u && t > u[j]) == (set t | t in u[..j])
  {
    forall t | t in u && t > u[j] ensures t in u[..j] {
      var k :| 0 <= k < |u| && u[k] == t;
      assert u[..j][k] == t;
    }
  }

  /** Entry by entry, the comprehension gives each listed size its position plus one. */
  lemma {:induction false} LevelsAt(top: seq<real>, s: real)
    requires StrictlyDescending(top)
    ensures s in Levels(top) <==> s in top
    ensures forall j :: 0 <= j < |top| && top[j] == s ==> Levels(top)[s] == Min(j + 1, DeepestLevel)
  {
    if top != [] {
      var init := top[..|top| - 1];
      LevelsAt(init, s);
      assert top == init + [top[|top| - 1]];
    }
  }

  /** The keys of the profile are the listed top sizes, and the j-th of them has level j + 1. */
  lemma FontMapAt(sizes: seq<real>, s: real)
    ensures s in FontMap(sizes) <==> s in TopSizes(sizes)
    ensures forall j :: 0 <= j < |TopSizes(sizes)| && TopSizes(sizes)[j] == s ==> FontMap(sizes)[s] == j + 1
  {
    var top := TopSizes(sizes);
    assert StrictlyDescending(top);
    LevelsAt(top, s);
  }

  /** The profile is the rank order of sizes: a size is a key exactly when it occurs and
      fewer than five distinct sizes are larger, and its level is one more than that count.
      So the largest size gets level 1 and each next smaller size the next level. */
  lemma FontMapByRank(sizes: seq<real>)
    ensures forall s :: s in FontMap(sizes) <==> s in sizes && Rank(sizes, s) < HeadingSizes
    ensures forall s :: s in FontMap(sizes) ==> FontMap(sizes)[s] == Rank(sizes, s) + 1
  {
    var u := DistinctDescending(sizes);
    var m := FontMap(sizes);
    forall s
      ensures s in m <==> s in sizes && Rank(sizes, s) < HeadingSizes
      ensures s in m ==> m[s] == Rank(sizes, s) + 1
    {
      FontMapAt(sizes, s);
      if s in sizes {
        var j :| 0 <= j < |u| && u[j] == s;
        RankIsPosition(sizes, j);
        if j < HeadingSizes {
          assert TopSizes(sizes)[j] == s;
        }
      }
    }
  }

  /** At most five sizes are profiled, each one observed in the document, with a level from
      1 to 5; the `min(i + 1, 6)` cap never applies. No sizes give an empty profile. */
  lemma FontMapBounds(sizes: seq<real>)
    ensures |FontMap(sizes)| <= HeadingSizes
    ensures forall s :: s in FontMap(sizes) ==> s in sizes && 1 <= FontMap(sizes)[s] <= HeadingSizes
    ensures sizes == [] ==> FontMap(sizes) == map[]
  {
    var m := FontMap(sizes);
    var top := TopSizes(sizes);
    assert StrictlyDescending(top);
    DistinctCount(top);
    forall s | s in m ensures s in top && 1 <= m[s] <= HeadingSizes {
      FontMapAt(sizes, s);
      var j :| 0 <= j < |top| && top[j] == s;
    }
    assert m.Keys <= set t | t in top;
    SubsetCard(m.Keys, set t | t in top);
    FontMapByRank(sizes);
  }

  lemma SubsetCard(a: set<real>, b: set<real>)
    requires a <= b
    ensures |a| <= |b|
  {
    assert b == a + (b - a);
  }

  /** Levels follow size order: of two profiled sizes the larger has the smaller level, and
      every size left out of the profile is smaller than every profiled one. */
  lemma FontMapOrder(sizes: seq<real>)
    ensures forall a, b :: a in FontMap(sizes) && b in FontMap(sizes) && a > b ==>
      FontMap(sizes)[a] < FontMap(sizes)[b]
    ensures forall a, b :: a in FontMap(sizes) && b in sizes && b !in FontMap(sizes) ==> b < a
  {
    var m := FontMap(sizes);
    var u := DistinctDescending(sizes);
    var top := TopSizes(sizes);
    forall a, b | a in m && b in m && a > b ensures m[a] < m[b] {
      FontMapAt(sizes, a);
      FontMapAt(sizes, b);
      var i :| 0 <= i < |top| && top[i] == a;
      var j :| 0 <= j < |top| && top[j] == b;
      assert i < j;
    }
    forall a, b | a in m && b in sizes && b !in m ensures b < a {
      FontMapAt(sizes, a);
      FontMapAt(sizes, b);
      var i :| 0 <= i < |top| && top[i] == a;
      var j :| 0 <= j < |u| && u[j] == b;
      assert u[i] == a;
    }
  }

  // ---------------------------------------------------------------------------
  // Collecting the sizes

  /** The sizes of a page's characters, in order; `None` when a character has no size, where
      `char['size']` raises `KeyError`. */
  function PageSizes(chars: seq<PdfChar>): (r: Option<seq<real>>)
    ensures r.Some? <==> forall i :: 0 <= i < |chars| ==> chars[i].size.Some?
    ensures r.Some? ==> |r.value| == |chars| && forall i :: 0 <= i < |chars| ==> r.value[i] == chars[i].size.value
  {
    if chars == [] then Some([])
    else
      var last := chars[|chars| - 1];
      match PageSizes(chars[..|chars| - 1])
      case None => None
      case Some(init) => if last.size.None? then None else Some(init + [last.size.value])
  }

  /** All sizes of the document, page after page; `None` when any lookup raises. */
  function DocumentSizes(pages: seq<PdfPage>): (r: Option<seq<real>>)
    ensures r.None? <==> exists p, i :: 0 <= p < |pages| && 0 <= i < |pages[p].chars| && pages[p].chars[i].size.None?
  {
    if pages == [] then Some([])
    else
      match DocumentSizes(pages[..|pages| - 1])
      case None => None
      case Some(init) =>
        match PageSizes(pages[|pages| - 1].chars)
        case None => None
        case Some(more) => Some(init + more)
  }

  /** The gathered sizes are exactly the sizes of the document's characters. */
  lemma {:induction false} DocumentSizesMembers(pages: seq<PdfPage>)
    requires DocumentSizes(pages).Some?
    ensures forall s :: s in DocumentSizes(pages).value <==>
      exists p, i :: 0 <= p < |pages| && 0 <= i < |pages[p].chars| && pages[p].chars[i].size == Some(s)
  {
    if pages != [] {
      var init := pages[..|pages| - 1];
      var last := pages[|pages| - 1];
      DocumentSizesMembers(init);
      var more := PageSizes(last.chars).value;
      assert DocumentSizes(pages).value == DocumentSizes(init).value + more;
      forall s
        ensures s in DocumentSizes(pages).value <==>
          exists p, i :: 0 <= p < |pages| && 0 <= i < |pages[p].chars| && pages[p].chars[i].size == Some(s)
      {
        if s in more {
          var i :| 0 <= i < |more| && more[i] == s;
          assert pages[|pages| - 1].chars[i].size == Some(s);
        }
        if exists p, i :: 0 <= p < |pages| && 0 <= i < |pages[p].chars| && pages[p].chars[i].size == Some(s) {
          var p, i :| 0 <= p < |pages| && 0 <= i < |pages[p].chars| && pages[p].chars[i].size == Some(s);
          if p < |pages| - 1 {
            assert init[p].chars[i].size == Some(s);
          } else {
            assert more[i] == s;
          }
        }
      }
    }
  }

  /** `_analyze_font_sizes`: gathers every character size page by page, then profiles them.
      `None` stands for the `KeyError` it raises on a character without a size. */
  method AnalyzeFontSizes(pages: seq<PdfPage>) returns (r: Option<FontSizeMap>)
    ensures r.None? <==> DocumentSizes(pages).None?
    ensures r.None? <==> exists p, i :: 0 <= p < |pages| && 0 <= i < |pages[p].chars| && pages[p].chars[i].size.None?
    ensures r.Some? ==> r.value == FontMap(DocumentSizes(pages).value)
  {
    var fontSizes: seq<real> := [];
    for i := 0 to |pages|
      invariant DocumentSizes(pages[..i]) == Some(fontSizes)
    {
      assert pages[..i + 1][..i] == pages[..i];
      var sizes := PageSizes(pages[i].chars);
      if sizes.None? {
        assert DocumentSizes(pages[..i + 1]).None?;
        NoSizesExtend(pages, i + 1);
        return None;
      }
      fontSizes := fontSizes + sizes.value;
    }
    assert pages[..|pages|] == pages;
    r := Some(FontMap(fontSizes));
  }

  /** Once a prefix of the pages fails, the whole document fails. */
  lemma {:induction false} NoSizesExtend(pages: seq<PdfPage>, k: nat)
    requires k <= |pages| && DocumentSizes(pages[..k]).None?
    ensures DocumentSizes(pages).None?
    decreases |pages| - k
  {
    if k < |pages| {
      assert pages[..k + 1][..k] == pages[..k];
      NoSizesExtend(pages, k + 1);
    } else {
      assert pages[..k] == pages;
    }
  }

  /** `sorted(set(sizes), reverse=True)` is determined by the set: two strictly descending
      lists with the same elements are equal. */
  lemma {:induction false} DescendingUnique(a: seq<real>, b: seq<real>)
    requires StrictlyDescending(a) && StrictlyDescending(b)
    requires forall y :: y in a <==> y in b
    ensures a == b
  {
    assert a != [] ==> b != [] by { if a != [] { assert a[0] in a; } }
    assert b != [] ==> a != [] by { if b != [] { assert b[0] in b; } }
    if a != [] {
      assert a[0] == b[0] by {
        assert b[0] in b && a[0] in a;
        var i :| 0 <= i < |a| && a[i] == b[0];
        var j :| 0 <= j < |b| && b[j] == a[0];
        assert a[0] >= a[i] && b[0] >= b[j];
      }
      DescendingTail(a);
      DescendingTail(b);
      DescendingUnique(a[1..], b[1..]);
      assert a == [a[0]] + a[1..];
      assert b == [b[0]] + b[1..];
    }
  }

  /** The tail of a strictly descending list is strictly descending and holds exactly the
      members smaller than the head. */
  lemma DescendingTail(v: seq<real>)
    requires StrictlyDescending(v) && v != []
    ensures StrictlyDescending(v[1..])
    ensures forall y :: y in v[1..] <==> y in v && y < v[0]
  {
    var rest := v[1..];
    forall i, j | 0 <= i < j < |rest| ensures rest[i] > rest[j] {
      assert rest[i] == v[i + 1] && rest[j] == v[j + 1];
    }
    forall y | y in v && y < v[0] ensures y in rest {
      var k :| 0 <= k < |v| && v[k] == y;
      assert rest[k - 1] == y;
    }
    forall y | y in rest ensures y in v && y < v[0] {
      var k :| 0 <= k < |rest| && rest[k] == y;
      assert v[k + 1] == y;
    }
  }

  /** The sizes 8, 8, 10, 12, 12, 14, 20 profile as 20 -> 1, 14 -> 2, 12 -> 3, 10 -> 4, 8 -> 5. */
  lemma ProfileExample()
    ensures FontMap([8.0, 8.0, 10.0, 12.0, 12.0, 14.0, 20.0]) == map[20.0 := 1, 14.0 := 2, 12.0 := 3, 10.0 := 4, 8.0 := 5]
  {
    var sizes := [8.0, 8.0, 10.0, 12.0, 12.0, 14.0, 20.0];
    var u := [20.0, 14.0, 12.0, 10.0, 8.0];
    DescendingUnique(DistinctDescending(sizes), u);
    assert TopSizes(sizes) == u;
    assert Levels([20.0]) == map[20.0 := 1] by { assert [20.0][..0] == []; }
    assert Levels([20.0, 14.0]) == map[20.0 := 1, 14.0 := 2] by { assert [20.0, 14.0][..1] == [20.0]; }
    assert Levels([20.0, 14.0, 12.0]) == map[20.0 := 1, 14.0 := 2, 12.0 := 3] by { assert [20.0, 14.0, 12.0][..2] == [20.0, 14.0]; }
    assert Levels([20.0, 14.0, 12.0, 10.0]) == map[20.0 := 1, 14.0 := 2, 12.0 := 3, 10.0 := 4] by { assert [20.0, 14.0, 12.0, 10.0][..3] == [20.0, 14.0, 12.0]; }
    assert Levels(u) == map[20.0 := 1, 14.0 := 2, 12.0 := 3, 10.0 := 4, 8.0 := 5] by { assert u[..4] == [20.0, 14.0, 12.0, 10.0]; }
  }
}

=== FILE: heading_vote.dfy ===
/** The heading classifier of the PDF converter: three signals (a profiled font size, a
    centred bounding box, upper-case text) vote, and two votes make a heading. The vote is
    written twice in the converter, inline in the page loop and as `_detect_heading`; both
    are modelled and compared. */
module HeadingVote {
  import opened Wrappers
  import opened Text
  import opened PdfLayout
  import opened FontProfile

  /** A block is centred when its centre is strictly closer than this to the page centre. */
  const CentringTolerance: real := 50.0

  /** The size assumed for a first character that has no `size` entry. */
  const DefaultFontSize: real := 12.0

  function Abs(x: real): real {
    if x < 0.0 then -x else x
  }

  /** `font_size_map.get(size, 0)`: the heading level of a size, 0 for body text. */
  function LevelOf(fm: FontSizeMap, size: real): nat {
    if size in fm then fm[size] else 0
  }

  /** `abs((x0 + x1) / 2 - page_width / 2) < 50`. */
  predicate IsCentred(bbox: seq<real>, pageWidth: real)
    requires |bbox| >= 3
  {
    Abs((bbox[2] + bbox[0]) / 2.0 - pageWidth / 2.0) < CentringTolerance
  }

  /** `sum([a, b, c])` over booleans. */
  function Votes(a: bool, b: bool, c: bool): nat {
    (if a then 1 else 0) + (if b then 1 else 0) + (if c then 1 else 0)
  }

  /** What the inline vote decides for a block with text: body text, a heading of the given
      level, or an `IndexError` (a bounding box too short to read `bbox[2]`), after which the
      block is skipped. */
  datatype Decision = Body | Heading(level: nat) | Raised

  /** The block's text, `block.get('text', '').strip()`. */
  function BlockText(line: TextLine): string {
    Strip(line.text.GetOr(""), IsSpace)
  }

  /** The block's box, `block.get('bbox', (0, 0, page_width, page_height))`. */
  function BlockBox(line: TextLine, pageWidth: real, pageHeight: real): seq<real> {
    line.bbox.GetOr([0.0, 0.0, pageWidth, pageHeight])
  }

  /** The inline vote of the page loop. A block without characters is never a heading; a
      first character without a size counts as size 12. */
  function Classify(line: TextLine, pageWidth: real, pageHeight: real, fm: FontSizeMap): (d: Decision)
    ensures line.chars == [] ==> d == Body
    ensures d.Heading? ==> d.level <= DeepestLevel && |BlockBox(line, pageWidth, pageHeight)| >= 3
    ensures d.Heading? && d.level == 0 ==>
      IsCentred(BlockBox(line, pageWidth, pageHeight), pageWidth) && IsUpperText(BlockText(line))
  {
    if line.chars == [] then Body
    else
      var bbox := BlockBox(line, pageWidth, pageHeight);
      if |bbox| < 3 then Raised
      else
        var level := LevelOf(fm, line.chars[0].size.GetOr(DefaultFontSize));
        var centred := IsCentred(bbox, pageWidth);
        var upper := IsUpperText(BlockText(line));
        if Votes(level > 0, centred, upper) >= 2 then Heading(Min(level, DeepestLevel)) else Body
  }

  /** The Markdown a block contributes: nothing for blank text or a skipped block, a heading
      line framed by newlines, or the text with two trailing spaces (a Markdown line break). */
  function BlockFragments(line: TextLine, pageWidth: real, pageHeight: real, fm: FontSizeMap): (r: seq<string>)
    ensures |r| <= 1
    ensures r != [] ==> BlockText(line) != []
    ensures r != [] && !Classify(line, pageWidth, pageHeight, fm).Heading? ==> r[0] == BlockText(line) + "  "
    ensures r == [] <==> BlockText(line) == [] || Classify(line, pageWidth, pageHeight, fm).Raised?
    ensures r != [] && Classify(line, pageWidth, pageHeight, fm).Heading? ==>
      r == [HeadingLine(Classify(line, pageWidth, pageHeight, fm).level, BlockText(line))]
  {
    var text := BlockText(line);
    if text == [] then []
    else
      match Classify(line, pageWidth, pageHeight, fm)
      case Raised => []
      case Heading(level) => [HeadingLine(level, text)]
      case Body => [text + "  "]
  }

  /** `f"\n{'#' * level} {text}\n"`. */
  function HeadingLine(level: nat, text: string): (r: string)
    ensures |r| == level + |text| + 3 && r[0] == '\n' && r[|r| - 1] == '\n'
  {
    "\n" + Repeat('#', level) + " " + text + "\n"
  }

  /** `_detect_heading`: the same vote, read from a block dictionary that also carries a
      `page_width` entry; gives the vote and the uncapped level. `None` where a lookup raises:
      no characters, a first character without a size, no or a short bounding box, no page
      width, no text. */
  function DetectHeading(line: TextLine, pageWidth: Option<real>, fm: FontSizeMap): (r: Option<(bool, nat)>)
    ensures r.Some? ==> line.chars != [] && line.chars[0].size.Some?
    ensures r.Some? ==> line.bbox.Some? && |line.bbox.value| >= 3 && pageWidth.Some? && line.text.Some?
    ensures r.Some? ==> r.value.1 == LevelOf(fm, line.chars[0].size.value)
    ensures r.Some? && r.value.0 && r.value.1 == 0 ==>
      IsCentred(line.bbox.value, pageWidth.value) && IsUpperText(Strip(line.text.value, IsSpace))
  {
    if || line.chars == [] || line.chars[0].size.None?
       || line.bbox.None? || |line.bbox.value| < 3
       || pageWidth.None? || line.text.None?
    then None
    else
      var level := LevelOf(fm, line.chars[0].size.value);
      var centred := IsCentred(line.bbox.value, pageWidth.value);
      var upper := IsUpperText(Strip(line.text.value, IsSpace));
      Some((Votes(level > 0, centred, upper) >= 2, level))
  }

  // ---------------------------------------------------------------------------
  // Properties of the vote

  /** The three signals of a block with characters and a readable box. */
  predicate FontSignal(line: TextLine, fm: FontSizeMap)
    requires line.chars != []
  {
    LevelOf(fm, line.chars[0].size.GetOr(DefaultFontSize)) > 0
  }

  predicate CentreSignal(line: TextLine, pageWidth: real, pageHeight: real)
    requires |BlockBox(line, pageWidth, pageHeight)| >= 3
  {
    IsCentred(BlockBox(line, pageWidth, pageHeight), pageWidth)
  }

  predicate CaseSignal(line: TextLine) {
    IsUpperText(BlockText(line))
  }

  /** A block is a heading exactly when it has characters, a readable box, and at least two
      of the three signals agree; its level is its font level capped at 6. */
  lemma HeadingIffTwoSignals(line: TextLine, pageWidth: real, pageHeight: real, fm: FontSizeMap)
    ensures Classify(line, pageWidth, pageHeight, fm).Heading? <==>
      && line.chars != []
      && |BlockBox(line, pageWidth, pageHeight)| >= 3
      && var f, c, u := FontSignal(line, fm), CentreSignal(line, pageWidth, pageHeight), CaseSignal(line);
         (f && c) || (f && u) || (c && u)
    ensures Classify(line, pageWidth, pageHeight, fm).Heading? ==>
      Classify(line, pageWidth, pageHeight, fm).level ==
        Min(LevelOf(fm, line.chars[0].size.GetOr(DefaultFontSize)), DeepestLevel)
    ensures Classify(line, pageWidth, pageHeight, fm).Raised? <==>
      line.chars != [] && |BlockBox(line, pageWidth, pageHeight)| < 3
  {
  }

  /** What a non-blank block emits, in terms of the vote: with characters and a readable box,
      a heading line at the capped font level when two of the three signals agree and the
      text plus two spaces otherwise; with characters and a short box, nothing (the block's
      `IndexError` is caught); without characters, the text plus two spaces. */
  lemma BlockFragmentsByVote(line: TextLine, pageWidth: real, pageHeight: real, fm: FontSizeMap)
    requires BlockText(line) != []
    ensures line.chars != [] && |BlockBox(line, pageWidth, pageHeight)| >= 3 ==>
      BlockFragments(line, pageWidth, pageHeight, fm) ==
        var f, c, u := FontSignal(line, fm), CentreSignal(line, pageWidth, pageHeight), CaseSignal(line);
        if (f && c) || (f && u) || (c && u)
        then [HeadingLine(Min(LevelOf(fm, line.chars[0].size.GetOr(DefaultFontSize)), DeepestLevel), BlockText(line))]
        else [BlockText(line) + "  "]
    ensures line.chars != [] && |BlockBox(line, pageWidth, pageHeight)| < 3 ==>
      BlockFragments(line, pageWidth, pageHeight, fm) == []
    ensures line.chars == [] ==> BlockFragments(line, pageWidth, pageHeight, fm) == [BlockText(line) + "  "]
  {
    HeadingIffTwoSignals(line, pageWidth, pageHeight, fm);
  }

  /** A block without characters is body text, whatever its position and case. */
  lemma NoCharsIsBody(line: TextLine, pageWidth: real, pageHeight: real, fm: FontSizeMap)
    requires line.chars == [] && BlockText(line) != []
    ensures BlockFragments(line, pageWidth, pageHeight, fm) == [BlockText(line) + "  "]
  {
  }

  /** Blank text contributes nothing, whatever else the block holds. */
  lemma BlankEmitsNothing(line: TextLine, pageWidth: real, pageHeight: real, fm: FontSizeMap)
    requires forall i :: 0 <= i < |line.text.GetOr("")| ==> IsSpace(line.text.GetOr("")[i])
    ensures BlockFragments(line, pageWidth, pageHeight, fm) == []
  {
  }

  /** The centring test is strict: a centre 50 away from the page centre is not centred, one
      49 away is. A block without a box gets the whole page as box and is centred. */
  lemma CentringBoundary(x0: real, width: real)
    ensures IsCentred([x0, 0.0, x0 + 2.0 * (width / 2.0 + 49.0 - x0)], width)
    ensures IsCentred([x0, 0.0, x0 + 2.0 * (width / 2.0 - 49.0 - x0)], width)
    ensures !IsCentred([x0, 0.0, x0 + 2.0 * (width / 2.0 + 50.0 - x0)], width)
    ensures !IsCentred([x0, 0.0, x0 + 2.0 * (width / 2.0 - 50.0 - x0)], width)
    ensures IsCentred([0.0, 0.0, width, 0.0], width)
  {
  }

  /** A heading line is a newline, exactly `level` hashes, a space, the text and a newline;
      the hash run stops at the space, so the level can be read back. */
  lemma HeadingLineShape(level: nat, text: string)
    ensures var f := HeadingLine(level, text);
      && |f| == level + |text| + 3
      && f[0] == '\n'
      && (forall i :: 1 <= i <= level ==> f[i] == '#')
      && f[level + 1] == ' '
      && f[level + 2..|f| - 1] == text
      && f[|f| - 1] == '\n'
  {
    var f := HeadingLine(level, text);
    assert f == "\n" + Repeat('#', level) + " " + text + "\n";
    forall i | 1 <= i <= level ensures f[i] == '#' {
      assert f[i] == Repeat('#', level)[i - 1];
    }
    assert f[level + 2..|f| - 1] == text;
  }

  /** With a profiled map, a heading carries between 0 and 5 hashes, and none exactly when its
      first character's size is not among the five largest: such a heading was voted in by
      centring and upper case alone and renders as `"\n " + text + "\n"`. */
  lemma ProfiledHeadingLevel(line: TextLine, pageWidth: real, pageHeight: real, sizes: seq<real>, level: nat)
    requires Classify(line, pageWidth, pageHeight, FontMap(sizes)) == Heading(level)
    ensures level <= HeadingSizes
    ensures level == 0 <==> line.chars[0].size.GetOr(DefaultFontSize) !in TopSizes(sizes)
    ensures level == 0 ==> CentreSignal(line, pageWidth, pageHeight) && CaseSignal(line)
  {
    FontMapBounds(sizes);
    FontMapAt(sizes, line.chars[0].size.GetOr(DefaultFontSize));
  }

  /** `_detect_heading` agrees with the inline vote wherever it does not raise: the same
      decision, with the inline level being its level capped at 6. Where it raises, the inline
      vote instead falls back to size 12 and the whole page as box. The level it returns is
      the profile's level for the first character's size, heading or not. */
  lemma DetectAgreesWithInline(line: TextLine, pageWidth: real, pageHeight: real, fm: FontSizeMap)
    requires line.chars != [] && line.chars[0].size.Some?
    requires line.bbox.Some? && |line.bbox.value| >= 3 && line.text.Some?
    ensures DetectHeading(line, Some(pageWidth), fm).Some?
    ensures var (isHeading, level) := DetectHeading(line, Some(pageWidth), fm).value;
      Classify(line, pageWidth, pageHeight, fm) == if isHeading then Heading(Min(level, DeepestLevel)) else Body
    ensures DetectHeading(line, Some(pageWidth), fm).value.1 == LevelOf(fm, line.chars[0].size.value)
  {
  }

  /** `_detect_heading` raises on a block without characters, which the inline vote treats as
      body text. */
  lemma DetectRaisesWithoutChars(line: TextLine, pageWidth: Option<real>, fm: FontSizeMap)
    requires line.chars == []
    ensures DetectHeading(line, pageWidth, fm).None?
  {
  }
}

=== FILE: markdownify.dfy ===
/** The converter class of `test.py` (`MarkdownifyMCP`; `test01.py` is an identical copy):
    each converter collects Markdown fragments in a list, and `_save_md` joins them with
    newlines into one output file named after the input. */
module Markdownify {
  import opened Wrappers
  import opened Text
  import opened Paths
  import opened PdfLayout
  import opened FontProfile
  import opened HeadingVote

  /** The file `_save_md` writes: where, and what. */
  datatype OutputFile = OutputFile(path: string, text: string)

  /** Why a conversion raises before writing anything. */
  datatype ConversionError =
    | UnsupportedFormat   // `convert` with an extension it does not know
    | BadHeadingStyle     // a `Heading…` style whose level cannot be read

  /** `_save_md`: the content joined by newlines, written next to `outputDir`'s other
      conversions under the input's stem with the extension `.md`. */
  function SaveMd(content: seq<string>, inputPath: string, outputDir: string): OutputFile {
    OutputFile(OutputPath(inputPath, outputDir), Join("\n", content))
  }

  // ---------------------------------------------------------------------------
  // Word documents

  datatype DocxParagraph = DocxParagraph(styleName: string, text: string)

  /** A table as python-docx reads it: its column count and the cell texts of each row. */
  datatype DocxTable = DocxTable(columnCount: nat, rows: seq<seq<string>>)

  datatype DocxDocument = DocxDocument(paragraphs: seq<DocxParagraph>, tables: seq<DocxTable>)

  const DocxTableTitle: string := "### 表格提取\n"

  /** A paragraph's Markdown line. A style named `Heading…` must carry its level as the
      second space-separated word (`Heading 2`); otherwise `split(' ')[1]` or `int()`
      raises, modelled as `None`. */
  function ParagraphLine(p: DocxParagraph): (r: Option<string>)
    ensures r.None? ==> StartsWith(p.styleName, "Heading")
    ensures r.Some? ==> |p.text| <= |r.value| && r.value[|r.value| - |p.text|..] == p.text
    ensures !StartsWith(p.styleName, "Heading") ==> r == Some(p.text)
  {
    if StartsWith(p.styleName, "Heading") then
      var words := Split(p.styleName, ' ');
      if |words| < 2 then None
      else
        match ParseInt(words[1])
        case None => None
        case Some(level) => Some(Repeat('#', level) + " " + p.text)
    else Some(p.text)
  }

  /** The lines of all paragraphs, or `None` if one of them raises. */
  function ParagraphLines(ps: seq<DocxParagraph>): Option<seq<string>> {
    if ps == [] then Some([])
    else
      match ParagraphLines(ps[..|ps| - 1])
      case None => None
      case Some(init) =>
        match ParagraphLine(ps[|ps| - 1])
        case None => None
        case Some(line) => Some(init + [line])
  }

  /** `"| " + " | ".join(cells) + " |"`. */
  function RowLine(cells: seq<string>): string {
    "| " + Join(" | ", cells) + " |"
  }

  /** The header separator: one `---` cell per column. */
  function SeparatorLine(columns: nat): string {
    RowLine(Repeat("---", columns))
  }

  /** The Markdown of a table: the header row, the separator, then the other rows; nothing at
      all for a table without rows. */
  function TableLines(t: DocxTable): (r: seq<string>)
    ensures |r| == if t.rows == [] then 0 else |t.rows| + 1
  {
    if t.rows == [] then []
    else [RowLine(t.rows[0]), SeparatorLine(t.columnCount)] + RowLines(t.rows[1..])
  }

  /** One line per row. */
  function RowLines(rows: seq<seq<string>>): (r: seq<string>)
    ensures |r| == |rows| && forall k :: 0 <= k < |rows| ==> r[k] == RowLine(rows[k])
  {
    if rows == [] then [] else RowLines(rows[..|rows| - 1]) + [RowLine(rows[|rows| - 1])]
  }

  /** What the tables add: for each, a blank line, the table title, then its lines. */
  function TablesBlock(tables: seq<DocxTable>): seq<string> {
    if tables == [] then []
    else TablesBlock(tables[..|tables| - 1]) + TableSection(tables[|tables| - 1])
  }

  /** A blank line, the title, then the table. */
  function TableSection(t: DocxTable): seq<string> {
    ["\n", DocxTableTitle] + TableLines(t)
  }

  function DocxContent(doc: DocxDocument): Option<seq<string>> {
    match ParagraphLines(doc.paragraphs)
    case None => None
    case Some(lines) => Some(lines + TablesBlock(doc.tables))
  }

  /** The `md_table` loop: one line per row, then the separator inserted at index 1. */
  method RenderDocxTable(t: DocxTable) returns (mdTable: seq<string>)
    ensures mdTable == TableLines(t)
  {
    mdTable := [];
    for i := 0 to |t.rows|
      invariant |mdTable| == i
      invariant forall k :: 0 <= k < i ==> mdTable[k] == RowLine(t.rows[k])
    {
      mdTable := mdTable + [RowLine(t.rows[i])];
    }
    if mdTable != [] {
      assert mdTable[1..] == RowLines(t.rows[1..]);
      mdTable := mdTable[..1] + [SeparatorLine(t.columnCount)] + mdTable[1..];
    }
  }

  lemma TablesBlockStep(tables: seq<DocxTable>, j: nat)
    requires j < |tables|
    ensures TablesBlock(tables[..j + 1]) == TablesBlock(tables[..j]) + TableSection(tables[j])
  {
    assert tables[..j + 1][..j] == tables[..j];
  }

  /** One table of the table loop: `["\n", "### 表格提取\n"] + md_table`. */
  method RenderTableSection(t: DocxTable) returns (section: seq<string>)
    ensures section == TableSection(t)
  {
    var mdTable := RenderDocxTable(t);
    section := ["\n", DocxTableTitle] + mdTable;
  }

  /** `_convert_docx`: paragraphs first, then every table; the file is written only if no
      heading style raises. */
  method ConvertDocx(inputPath: string, outputDir: string, doc: DocxDocument)
    returns (r: Result<OutputFile, ConversionError>)
    ensures DocxContent(doc).None? ==> r == Err(BadHeadingStyle)
    ensures DocxContent(doc).Some? ==> r == Ok(SaveMd(DocxContent(doc).value, inputPath, outputDir))
  {
    var lines := ConvertParagraphs(doc.paragraphs);
    if lines.None? {
      return Err(BadHeadingStyle);
    }
    var md := AppendDocxTables(lines.value, doc.tables);
    r := Ok(SaveMd(md, inputPath, outputDir));
  }

  /** The paragraph loop: one line per paragraph, stopping at the first that raises. */
  method ConvertParagraphs(ps: seq<DocxParagraph>) returns (r: Option<seq<string>>)
    ensures r == ParagraphLines(ps)
  {
    var md: seq<string> := [];
    for i := 0 to |ps|
      invariant ParagraphLines(ps[..i]) == Some(md)
    {
      assert ps[..i + 1][..i] == ps[..i];
      var line := ParagraphLine(ps[i]);
      if line.None? {
        assert ParagraphLines(ps[..i + 1]).None?;
        ParagraphFailureSticks(ps, i + 1);
        return None;
      }
      assert ParagraphLines(ps[..i + 1]) == Some(md + [line.value]);
      md := md + [line.value];
    }
    assert ps[..|ps|] == ps;
    r := Some(md);
  }

  /** The table loop: a blank line, the title and the rendered table, for each table. */
  method AppendDocxTables(md: seq<string>, tables: seq<DocxTable>) returns (r: seq<string>)
    ensures r == md + TablesBlock(tables)
  {
    r := md;
    for j := 0 to |tables|
      invariant r == md + TablesBlock(tables[..j])
    {
      TablesBlockStep(tables, j);
      var section := RenderTableSection(tables[j]);
      AppendAssoc(md, TablesBlock(tables[..j]), section);
      r := r + section;
    }
    assert tables[..|tables|] == tables;
  }

  lemma {:induction false} ParagraphFailureSticks(ps: seq<DocxParagraph>, k: nat)
    requires k <= |ps| && ParagraphLines(ps[..k]).None?
    ensures ParagraphLines(ps).None?
    decreases |ps| - k
  {
    if k < |ps| {
      assert ps[..k + 1][..k] == ps[..k];
      ParagraphFailureSticks(ps, k + 1);
    } else {
      assert ps[..k] == ps;
    }
  }

  // ---------------------------------------------------------------------------
  // PDF documents

  const PdfTableTitle: string := "\n### PDF表格\n"

  /** What the block loop adds for one block of the page. */
  function BlockMarkdown(pageWidth: real, pageHeight: real, fm: FontSizeMap): TextLine -> seq<string> {
    line => BlockFragments(line, pageWidth, pageHeight, fm)
  }

  /** The fragments of a page's tables: a table without rows is passed over, and the first
      table whose rendering raises ends the table loop. `render` is the foreign
      `DataFrame(table[1:], columns=table[0]).to_markdown(index=False)`. */
  function TablesFragments(tables: seq<Table>, render: Table -> Option<string>): (r: seq<string>)
    ensures |r| <= |tables|
  {
    if tables == [] then []
    else if tables[0] == [] then TablesFragments(tables[1..], render)
    else
      match render(tables[0])
      case None => []
      case Some(md) => [PdfTableTitle + md] + TablesFragments(tables[1..], render)
  }

  /** A page's fragments: its text lines, then its tables. A page whose line extraction
      raises contributes nothing; one whose table extraction raises keeps its text. */
  function PageFragments(page: PdfPage, fm: FontSizeMap, render: Table -> Option<string>): seq<string> {
    match page.lines
    case Failed => []
    case Extracted(lines) =>
      ConcatMap(lines, BlockMarkdown(page.width, page.height, fm))
        + (match page.tables
           case Failed => []
           case Extracted(tables) => TablesFragments(tables, render))
  }

  function DocumentFragments(pages: seq<PdfPage>, fm: FontSizeMap, render: Table -> Option<string>): seq<string> {
    if pages == [] then []
    else DocumentFragments(pages[..|pages| - 1], fm, render) + PageFragments(pages[|pages| - 1], fm, render)
  }

  /** The profile the PDF converter uses: the document's, or an empty one when profiling raises. */
  function ProfileOrEmpty(pages: seq<PdfPage>): FontSizeMap {
    match DocumentSizes(pages)
    case None => map[]
    case Some(sizes) => FontMap(sizes)
  }

  /** `_convert_pdf`: profile the fonts, then walk the pages. */
  method ConvertPdf(inputPath: string, outputDir: string, pages: seq<PdfPage>, render: Table -> Option<string>)
    returns (out: OutputFile)
    ensures out == SaveMd(DocumentFragments(pages, ProfileOrEmpty(pages), render), inputPath, outputDir)
  {
    var fm := ProfileFonts(pages);
    var md: seq<string> := [];
    for p := 0 to |pages|
      invariant md == DocumentFragments(pages[..p], fm, render)
    {
      assert pages[..p + 1][..p] == pages[..p];
      md := ConvertPage(md, pages[p], fm, render);
      AppendAssoc([], DocumentFragments(pages[..p], fm, render), PageFragments(pages[p], fm, render));
    }
    assert pages[..|pages|] == pages;
    out := SaveMd(md, inputPath, outputDir);
  }

  /** The profiling step inside its `try`: the document's profile, or an empty map when
      `_analyze_font_sizes` raises. */
  method ProfileFonts(pages: seq<PdfPage>) returns (fm: FontSizeMap)
    ensures fm == ProfileOrEmpty(pages)
  {
    var profile := AnalyzeFontSizes(pages);
    fm := if profile.Some? then profile.value else map[];
  }

  /** One page of the page loop, inside its `try`: the block loop, then the table loop. If
      extracting the lines raises, the page adds nothing. */
  method ConvertPage(md: seq<string>, page: PdfPage, fm: FontSizeMap, render: Table -> Option<string>)
    returns (r: seq<string>)
    ensures r == md + PageFragments(page, fm, render)
  {
    r := md;
    if page.lines.Extracted? {
      var blocks := BlockMarkdown(page.width, page.height, fm);
      r := ExtendEach(r, page.lines.value, blocks);
      if page.tables.Extracted? {
        r := AppendTables(r, page.tables.value, render);
        AppendAssoc(md, ConcatMap(page.lines.value, blocks), TablesFragments(page.tables.value, render));
      }
    }
  }

  /** The table loop of a page, inside its own `try`: appends each rendered table until one
      raises. */
  method AppendTables(md: seq<string>, tables: seq<Table>, render: Table -> Option<string>)
    returns (r: seq<string>)
    ensures r == md + TablesFragments(tables, render)
  {
    r := md;
    for t := 0 to |tables|
      invariant r + TablesFragments(tables[t..], render) == md + TablesFragments(tables, render)
    {
      assert tables[t..][1..] == tables[t + 1..];
      if tables[t] != [] {
        var rendered := render(tables[t]);
        if rendered.None? {
          assert r + [] == r;
          return;
        }
        AppendAssoc(r, [PdfTableTitle + rendered.value], TablesFragments(tables[t + 1..], render));
        r := r + [PdfTableTitle + rendered.value];
      }
    }
  }

  // ---------------------------------------------------------------------------
  // Spreadsheets

  /** A sheet: its name and the foreign `DataFrame.to_markdown` rendering of its cells. */
  datatype ExcelSheet = ExcelSheet(name: string, rendered: string)

  const ExcelTitle: string := "## Excel 表格转换\n"
  const SheetTitle: string := "### 工作表: "

  function SheetsContent(sheets: seq<ExcelSheet>): seq<string> {
    if sheets == [] then []
    else
      var s := sheets[|sheets| - 1];
      SheetsContent(sheets[..|sheets| - 1]) + [SheetTitle + s.name, s.rendered + "\n"]
  }

  /** `_convert_excel`: a title, then per sheet its name line and its table. */
  method ConvertExcel(inputPath: string, outputDir: string, sheets: seq<ExcelSheet>) returns (out: OutputFile)
    ensures out == SaveMd([ExcelTitle] + SheetsContent(sheets), inputPath, outputDir)
  {
    var md := [ExcelTitle];
    for i := 0 to |sheets|
      invariant md == [ExcelTitle] + SheetsContent(sheets[..i])
    {
      assert sheets[..i + 1][..i] == sheets[..i];
      AppendAssoc([ExcelTitle], SheetsContent(sheets[..i]), [SheetTitle + sheets[i].name, sheets[i].rendered + "\n"]);
      md := md + [SheetTitle + sheets[i].name, sheets[i].rendered + "\n"];
    }
    assert sheets[..|sheets|] == sheets;
    out := SaveMd(md, inputPath, outputDir);
  }

  // ---------------------------------------------------------------------------
  // Dispatch

  datatype Format = DocxFormat | PdfFormat | ExcelFormat

  /** The converter `convert` picks from the lower-cased extension. */
  function FormatOf(inputPath: string): (r: Option<Format>)
    ensures r.None? <==> Lower(Extension(inputPath)) !in {".docx", ".pdf", ".xlsx", ".xls"}
  {
    FormatOfLowered(Lower(Extension(inputPath)))
  }

  /** The converter an already lower-cased extension names. */
  function FormatOfLowered(ext: string): Option<Format> {
    if ext == ".docx" then Some(DocxFormat)
    else if ext == ".pdf" then Some(PdfFormat)
    else if ext == ".xlsx" || ext == ".xls" then Some(ExcelFormat)
    else None
  }

  /** `convert`: dispatches on the extension; an unknown one raises before anything is read
      or written. The documents stand for what the readers would make of the input. */
  method Convert(inputPath: string, outputDir: string, doc: DocxDocument, pages: seq<PdfPage>,
                 render: Table -> Option<string>, sheets: seq<ExcelSheet>)
    returns (r: Result<OutputFile, ConversionError>)
    ensures r == Err(UnsupportedFormat) <==> FormatOf(inputPath).None?
    ensures r.Ok? ==> r.value.path == OutputPath(inputPath, outputDir)
    ensures FormatOf(inputPath) == Some(PdfFormat) ==>
      r == Ok(SaveMd(DocumentFragments(pages, ProfileOrEmpty(pages), render), inputPath, outputDir))
    ensures FormatOf(inputPath) == Some(ExcelFormat) ==>
      r == Ok(SaveMd([ExcelTitle] + SheetsContent(sheets), inputPath, outputDir))
    ensures FormatOf(inputPath) == Some(DocxFormat) ==>
      r == if DocxContent(doc).Some? then Ok(SaveMd(DocxContent(doc).value, inputPath, outputDir))
           else Err(BadHeadingStyle)
  {
    match FormatOf(inputPath)
    case None =>
      r := Err(UnsupportedFormat);
    case Some(DocxFormat) =>
      r := ConvertDocx(inputPath, outputDir, doc);
    case Some(PdfFormat) =>
      var out := ConvertPdf(inputPath, outputDir, pages, render);
      r := Ok(out);
    case Some(ExcelFormat) =>
      var out := ConvertExcel(inputPath, outputDir, sheets);
      r := Ok(out);
  }

  // ---------------------------------------------------------------------------
  // Properties

  /** A table with rows renders as its header row, the separator with one `---` per column,
      and then the remaining rows in order; a table without rows renders as nothing. */
  lemma TableLinesShape(t: DocxTable)
    ensures t.rows == [] ==> TableLines(t) == []
    ensures t.rows != [] ==>
      && |TableLines(t)| == |t.rows| + 1
      && TableLines(t)[0] == RowLine(t.rows[0])
      && TableLines(t)[1] == "| " + Join(" | ", Repeat("---", t.columnCount)) + " |"
      && forall k :: 1 <= k < |t.rows| ==> TableLines(t)[k + 1] == RowLine(t.rows[k])
  {
  }

  /** The two-column example: header `A | B`, one row `1 | 2`. */
  lemma TableExample()
    ensures TableLines(DocxTable(2, [["A", "B"], ["1", "2"]])) == ["| A | B |", "| --- | --- |", "| 1 | 2 |"]
  {
    assert Repeat("---", 2) == ["---", "---"] by {
      assert Repeat("---", 1) == ["---"];
    }
    assert RowLine(["A", "B"]) == "| A | B |" by {
      assert Join(" | ", ["A", "B"]) == "A | B";
    }
    assert RowLine(["1", "2"]) == "| 1 | 2 |" by {
      assert Join(" | ", ["1", "2"]) == "1 | 2";
    }
    assert SeparatorLine(2) == "| --- | --- |" by {
      assert Join(" | ", ["---", "---"]) == "--- | ---";
    }
  }

  /** A style whose first word starts with `Heading` and whose second word is the decimal
      `n` (`Heading 2`, `Heading1 2`) gives a line of `n` hashes, a space and the text. */
  lemma HeadingStyleLevel(word: string, n: nat, text: string)
    requires StartsWith(word, "Heading") && ' ' !in word
    ensures ParagraphLine(DocxParagraph(word + " " + Decimal(n), text)) == Some(Repeat('#', n) + " " + text)
  {
    var d := Decimal(n);
    assert ' ' !in d by {
      forall i | 0 <= i < |d| ensures d[i] != ' ' { assert IsDigit(d[i]); }
    }
    HeadingSecondWord(word, d, text);
    ParseDecimalExact(n);
  }

  /** For a two-word style `word t` whose first word starts with `Heading`, the level is
      `int(t)`: a line of that many hashes, a space and the text when `t` parses, and a raise
      when it does not (`Heading two`, `Heading 2.0`). */
  lemma HeadingSecondWord(word: string, t: string, text: string)
    requires StartsWith(word, "Heading") && ' ' !in word && ' ' !in t
    ensures ParseInt(t).Some? ==>
      ParagraphLine(DocxParagraph(word + " " + t, text)) == Some(Repeat('#', ParseInt(t).value) + " " + text)
    ensures ParseInt(t).None? ==> ParagraphLine(DocxParagraph(word + " " + t, text)).None?
  {
    StyleWords(word, t);
    StartsWithExtend(word, " " + t, "Heading");
    AppendAssoc(word, " ", t);
  }

  /** The words of the style `word t`. */
  lemma StyleWords(word: string, t: string)
    requires ' ' !in word && ' ' !in t
    ensures Split(word + " " + t, ' ') == [word, t]
  {
    assert Join([' '], [word, t]) == word + " " + t;
    SplitJoin([word, t], ' ');
  }

  /** A bare `Heading` style has no second word, so reading its level raises. */
  lemma BareHeadingRaises(text: string)
    ensures ParagraphLine(DocxParagraph("Heading", text)).None?
  {
    BareHeadingStyle();
    assert StartsWith("Heading", "Heading");
  }

  lemma BareHeadingStyle()
    ensures Split("Heading", ' ') == ["Heading"]
  {
    assert ' ' !in "Heading";
  }

  /** A page whose table extraction raises still contributes its text; a page whose line
      extraction raises contributes nothing, its tables included. */
  lemma PageFailureIsolation(page: PdfPage, fm: FontSizeMap, render: Table -> Option<string>)
    ensures page.lines.Extracted? && page.tables.Failed? ==>
      PageFragments(page, fm, render) == ConcatMap(page.lines.value, BlockMarkdown(page.width, page.height, fm))
    ensures page.lines.Failed? ==> PageFragments(page, fm, render) == []
  {
  }

  /** A page yields at most one fragment per table, each under the PDF table title. */
  lemma {:induction false} TablesFragmentsShape(tables: seq<Table>, render: Table -> Option<string>)
    ensures |TablesFragments(tables, render)| <= |tables|
    ensures forall k :: 0 <= k < |TablesFragments(tables, render)| ==>
      StartsWith(TablesFragments(tables, render)[k], PdfTableTitle)
  {
    if tables != [] {
      TablesFragmentsShape(tables[1..], render);
    }
  }

  /** When every table has rows and renders, each table gives exactly its titled rendering,
      in table order. */
  lemma {:induction false} TablesAllRendered(tables: seq<Table>, render: Table -> Option<string>)
    requires forall k :: 0 <= k < |tables| ==> tables[k] != [] && render(tables[k]).Some?
    ensures |TablesFragments(tables, render)| == |tables|
    ensures forall k :: 0 <= k < |tables| ==>
      TablesFragments(tables, render)[k] == PdfTableTitle + render(tables[k]).value
  {
    if tables != [] {
      TablesAllRendered(tables[1..], render);
    }
  }

  /** A detected table without rows is passed over: the loop goes on with the next table. */
  lemma TablesSkipEmpty(tables: seq<Table>, render: Table -> Option<string>)
    requires tables != [] && tables[0] == []
    ensures TablesFragments(tables, render) == TablesFragments(tables[1..], render)
  {
  }

  /** The first table with rows whose rendering raises drops every table after it, even
      those that would render. */
  lemma {:induction false} TablesStopAtFailure(tables: seq<Table>, render: Table -> Option<string>, k: nat)
    requires k < |tables| && tables[k] != [] && render(tables[k]).None?
    ensures TablesFragments(tables, render) == TablesFragments(tables[..k], render)
  {
    if k == 0 {
    } else {
      assert tables[1..][..k - 1] == tables[..k][1..];
      TablesStopAtFailure(tables[1..], render, k - 1);
    }
  }

  /** The dispatch ignores the case of the extension: `report.PDF` and `report.Pdf` go to
      the PDF converter. */
  lemma PdfInAnyCase(stem: string, ext: string)
    requires '/' !in stem && HasNonDot(stem, 0, |stem|)
    requires |ext| == 4 && ext[0] == '.' && Lower(ext) == ".pdf"
    ensures FormatOf(stem + ext) == Some(PdfFormat)
  {
    assert '.' !in ext[1..] && '/' !in ext by {
      forall i | 0 <= i < 4 ensures ext[i] != '/' && (i > 0 ==> ext[i] != '.') {
        assert Lower(ext)[i] == ".pdf"[i];
      }
    }
    SplitWithExtension(stem, ext);
  }

  /** A file named only by an extension is a dotfile without one, and is rejected. */
  lemma DotfileUnsupported(dir: string, name: string)
    requires |name| > 0 && name[0] == '.' && '.' !in name[1..] && '/' !in name
    ensures FormatOf(dir + "/" + name).None?
  {
    DotfileHasNoExtension(dir, name);
  }
}

=== FILE: paths.dfy ===
/** The POSIX `os.path` functions that decide where a converted file is written and which
    converter handles an input. */
module Paths {
  import opened Wrappers
  import opened Text

  /** The position of the last occurrence of `c` in `s` (Python's `str.rfind`, with `None`
      for `-1`). */
  function LastIndexOf(s: string, c: char): (r: Option<nat>)
    ensures r.None? ==> forall j :: 0 <= j < |s| ==> s[j] != c
    ensures r.Some? ==> r.value < |s| && s[r.value] == c
    ensures r.Some? ==> forall j :: r.value < j < |s| ==> s[j] != c
  {
    if s == [] then None
    else if s[|s| - 1] == c then Some(|s| - 1)
    else LastIndexOf(s[..|s| - 1], c)
  }

  /** `os.path.basename`: everything after the last `/`. */
  function Basename(p: string): (r: string)
    ensures |r| <= |p| && r == p[|p| - |r|..]
    ensures forall i :: 0 <= i < |r| ==> r[i] != '/'
    ensures |r| < |p| ==> p[|p| - |r| - 1] == '/'
  {
    match LastIndexOf(p, '/')
    case None => p
    case Some(i) => p[i + 1..]
  }

  /** Whether `p[from..to]` holds a character other than a dot. */
  predicate HasNonDot(p: string, from: nat, to: nat)
    requires from <= to <= |p|
  {
    exists i :: from <= i < to && p[i] != '.'
  }

  /** Where `os.path.splitext` cuts `p`: at the last dot, if that dot lies in the file name
      (after the last `/`) and some character of the file name before it is not a dot
      (`.bashrc` has no extension); `|p|` when there is no extension. */
  function ExtensionStart(p: string): (k: nat)
    ensures k <= |p|
    ensures k < |p| ==> p[k] == '.'
    ensures k < |p| ==> forall j :: k < j < |p| ==> p[j] != '.' && p[j] != '/'
  {
    var slash := LastIndexOf(p, '/');
    var start := if slash.Some? then slash.value + 1 else 0;
    match LastIndexOf(p, '.')
    case None => |p|
    case Some(dot) =>
      if dot < start then |p|
      else if HasNonDot(p, start, dot) then dot
      else |p|
  }

  /** `os.path.splitext`: the root and the extension, which together give the path back. */
  function SplitExt(p: string): (r: (string, string))
    ensures r.0 + r.1 == p
    ensures r.1 == [] || r.1[0] == '.'
    ensures forall i :: 0 <= i < |r.1| ==> r.1[i] != '/' && (i > 0 ==> r.1[i] != '.')
  {
    var k := ExtensionStart(p);
    assert p[..k] + p[k..] == p;
    (p[..k], p[k..])
  }

  function Extension(p: string): string {
    SplitExt(p).1
  }

  /** `os.path.join(dir, name)` for one further component. */
  function JoinPath(dir: string, name: string): (r: string)
    ensures StartsWith(name, "/") ==> r == name
    ensures !StartsWith(name, "/") ==> StartsWith(r, dir) && |name| <= |r| && r[|r| - |name|..] == name
    ensures !StartsWith(name, "/") ==> |r| == |name| || r[|r| - |name| - 1] == '/'
    ensures !StartsWith(name, "/") ==>
      |r| == |dir| + |name| + (if dir == [] || dir[|dir| - 1] == '/' then 0 else 1)
  {
    if StartsWith(name, "/") then name
    else if dir == [] || dir[|dir| - 1] == '/' then dir + name
    else dir + "/" + name
  }

  /** `os.path.join(output_dir, splitext(basename(input))[0] + ".md")`, the file both
      converters write to. */
  function OutputPath(input: string, outputDir: string): string {
    JoinPath(outputDir, SplitExt(Basename(input)).0 + ".md")
  }

  lemma BasenameIdempotent(p: string)
    ensures Basename(Basename(p)) == Basename(p)
  {
    BasenameOfSuffix(Basename(p), Basename(p));
  }

  /** The last occurrence of `c` in a tail of `s` is the last one in `s`, shifted, if it lies
      in the tail. */
  lemma LastIndexOfTail(s: string, n: nat, c: char)
    requires n <= |s|
    ensures LastIndexOf(s[n..], c) ==
      match LastIndexOf(s, c)
      case Some(i) => if i >= n then Some(i - n) else None
      case None => None
  {
    var t := s[n..];
    assert forall j :: 0 <= j < |t| ==> t[j] == s[n + j];
    var q := LastIndexOf(s, c);
    if q.Some? && q.value >= n {
      assert t[q.value - n] == c;
    }
  }

  /** The extension of a path is the extension of its file name, so taking `splitext` of the
      whole path or of its basename finds the same one. */
  lemma ExtensionOfBasename(p: string)
    ensures Extension(Basename(p)) == Extension(p)
  {
    var b := Basename(p);
    var start := |p| - |b|;
    ExtensionStartOfBasename(p);
    var kb, kp := ExtensionStart(b), ExtensionStart(p);
    assert b == p[start..];
    assert p[kp..] == b[kb..];
  }

  /** `splitext` cuts a path where it cuts its file name. */
  lemma ExtensionStartOfBasename(p: string)
    ensures var b := Basename(p);
      ExtensionStart(p) == if ExtensionStart(b) == |b| then |p| else |p| - |b| + ExtensionStart(b)
  {
    var b := Basename(p);
    var start := |p| - |b|;
    assert LastIndexOf(b, '/') == None;
    assert LastIndexOf(p, '/').Some? ==> LastIndexOf(p, '/').value + 1 == start;
    LastIndexOfTail(p, start, '.');
    match LastIndexOf(p, '.')
    case None =>
    case Some(dot) =>
      if dot >= start {
        HasNonDotShift(p, start, dot);
      }
  }

  lemma HasNonDotShift(p: string, start: nat, dot: nat)
    requires start <= dot <= |p|
    ensures HasNonDot(p[start..], 0, dot - start) <==> HasNonDot(p, start, dot)
  {
    var b := p[start..];
    if HasNonDot(p, start, dot) {
      var i :| start <= i < dot && p[i] != '.';
      assert b[i - start] == p[i];
    }
    if HasNonDot(b, 0, dot - start) {
      var i :| 0 <= i < dot - start && b[i] != '.';
      assert p[start + i] == b[i];
    }
  }

  /** The stem `splitext` leaves of a file name has no slash. */
  lemma StemHasNoSlash(input: string)
    ensures '/' !in SplitExt(Basename(input)).0
  {
    var b := Basename(input);
    var stem := SplitExt(b).0;
    assert stem + SplitExt(b).1 == b;
    assert forall i :: 0 <= i < |stem| ==> stem[i] == b[i];
  }

  /** The output file sits directly in `outputDir` and is named after the input's stem plus
      `.md`: the directory, a slash unless it already ends in one (or is empty), then that
      name. */
  lemma OutputPathShape(input: string, outputDir: string)
    ensures OutputPath(input, outputDir) ==
      (if outputDir == [] || outputDir[|outputDir| - 1] == '/' then outputDir else outputDir + "/")
        + (SplitExt(Basename(input)).0 + ".md")
    ensures Basename(OutputPath(input, outputDir)) == SplitExt(Basename(input)).0 + ".md"
  {
    var stem := SplitExt(Basename(input)).0;
    StemHasNoSlash(input);
    JoinedName(outputDir, stem + ".md");
  }

  /** Joining a directory and a slash-free name gives a path inside the directory whose
      basename is that name. */
  lemma JoinedName(dir: string, name: string)
    requires name != [] && '/' !in name
    ensures StartsWith(JoinPath(dir, name), dir)
    ensures Basename(JoinPath(dir, name)) == name
    ensures JoinPath(dir, name) == (if dir == [] || dir[|dir| - 1] == '/' then dir else dir + "/") + name
  {
    assert !StartsWith(name, "/") by { assert name[0] != '/'; }
    BasenameOfSuffix(JoinPath(dir, name), name);
  }

  /** `splitext` undoes appending an extension (a dot and dot-free rest) to a file name that
      is not empty or all dots: appending `.md` to the stem gives the stem back as root. */
  lemma SplitWithExtension(stem: string, ext: string)
    requires '/' !in stem && HasNonDot(stem, 0, |stem|)
    requires |ext| > 0 && ext[0] == '.' && '.' !in ext[1..] && '/' !in ext
    ensures SplitExt(stem + ext) == (stem, ext)
  {
    var name := stem + ext;
    assert forall j :: 0 <= j < |name| ==> name[j] != '/' by {
      forall j | 0 <= j < |name| ensures name[j] != '/' {
        if j < |stem| { assert name[j] == stem[j]; } else { assert name[j] == ext[j - |stem|]; }
      }
    }
    assert forall j :: |stem| < j < |name| ==> name[j] != '.' by {
      forall j | |stem| < j < |name| ensures name[j] != '.' {
        assert name[j] == ext[1..][j - |stem| - 1];
      }
    }
    assert name[|stem|] == '.';
    assert LastIndexOf(name, '/') == None;
    assert LastIndexOf(name, '.') == Some(|stem|);
    var i :| 0 <= i < |stem| && stem[i] != '.';
    assert name[i] == stem[i];
    assert ExtensionStart(name) == |stem|;
    assert name[..|stem|] == stem;
  }

  /** A file name made of a dot and dot-free rest (`.docx`) is a dotfile: it has no
      extension, wherever it sits. */
  lemma DotfileHasNoExtension(dir: string, name: string)
    requires |name| > 0 && name[0] == '.' && '.' !in name[1..] && '/' !in name
    ensures Extension(dir + "/" + name) == ""
  {
    var p := dir + "/" + name;
    var start := |dir| + 1;
    assert forall j :: start <= j < |p| ==> p[j] == name[j - start];
    assert forall j :: start < j < |p| ==> p[j] != '.' by {
      forall j | start < j < |p| ensures p[j] != '.' {
        assert p[j] == name[1..][j - start - 1];
      }
    }
    assert p[|dir|] == '/' && p[start] == '.';
    assert LastIndexOf(p, '/') == Some(|dir|);
    assert LastIndexOf(p, '.') == Some(start);
    assert !HasNonDot(p, start, start);
    assert ExtensionStart(p) == |p|;
  }

  /** A slash-free tail of a path that follows a slash (or is the whole path) is its basename. */
  lemma BasenameOfSuffix(p: string, name: string)
    requires '/' !in name && |name| <= |p| && p[|p| - |name|..] == name
    requires |name| == |p| || p[|p| - |name| - 1] == '/'
    ensures Basename(p) == name
  {
    assert forall j :: |p| - |name| <= j < |p| ==> p[j] == name[j - (|p| - |name|)];
  }
}

=== FILE: pdf_layout.dfy ===
/** The records the PDF layout engine hands to the converter. The engine itself (page
    geometry, character metadata, line grouping, table detection) is outside the model: its
    results are inputs. */
module PdfLayout {
  import opened Wrappers

  /** One character record; `size` is `None` when the record has no `size` entry. */
  datatype PdfChar = PdfChar(size: Option<real>)

  /** One text line as `extract_text_lines` returns it. An absent `text` or `bbox` entry is
      `None`; an absent `chars` entry is the empty list. `bbox` is `(x0, top, x1, bottom)`,
      a list that a malformed record may leave too short. */
  datatype TextLine = TextLine(text: Option<string>, bbox: Option<seq<real>>, chars: seq<PdfChar>)

  /** A detected table: rows of cell strings, the first row being the header. */
  type Table = seq<seq<string>>

  /** The outcome of a call into the layout engine that may raise. */
  datatype Extraction<T> = Extracted(value: T) | Failed

  /** One page: its size, its characters, and what line and table extraction give. */
  datatype PdfPage = PdfPage(
    width: real,
    height: real,
    chars: seq<PdfChar>,
    lines: Extraction<seq<TextLine>>,
    tables: Extraction<seq<Table>>)
}

=== FILE: text.dfy ===
/** The handful of Python `str` operations the converters rely on, stated over sequences. */
module Text {
  import opened Wrappers

  /** Python's `str.isspace()` for one code point: the Unicode whitespace characters
      (bidirectional classes WS, B, S and category Zs) that `str.strip()` removes. */
  predicate IsSpaceCode(c: int) {
    || (0x09 <= c <= 0x0D)
    || (0x1C <= c <= 0x20)
    || c == 0x85 || c == 0xA0 || c == 0x1680
    || (0x2000 <= c <= 0x200A)
    || c == 0x2028 || c == 0x2029 || c == 0x202F || c == 0x205F || c == 0x3000
  }

  predicate IsSpace(c: char) {
    IsSpaceCode(c as int)
  }

  // ---------------------------------------------------------------------------
  // str.strip()

  /** Drops the leading elements that satisfy `space`. */
  function StripLeft<T>(s: seq<T>, space: T -> bool): (r: seq<T>)
    ensures |r| <= |s| && r == s[|s| - |r|..]
    ensures forall i :: 0 <= i < |s| - |r| ==> space(s[i])
    ensures r == [] || !space(r[0])
  {
    if s == [] || !space(s[0]) then s else StripLeft(s[1..], space)
  }

  /** Drops the trailing elements that satisfy `space`. */
  function StripRight<T>(s: seq<T>, space: T -> bool): (r: seq<T>)
    ensures |r| <= |s| && r == s[..|r|]
    ensures forall i :: |r| <= i < |s| ==> space(s[i])
    ensures r == [] || !space(r[|r| - 1])
  {
    if s == [] || !space(s[|s| - 1]) then s else StripRight(s[..|s| - 1], space)
  }

  /** Python's `str.strip()`: removes whitespace from both ends. */
  function Strip<T>(s: seq<T>, space: T -> bool): (r: seq<T>)
    ensures |r| <= |s|
    ensures r == [] <==> forall i :: 0 <= i < |s| ==> space(s[i])
    ensures r != [] ==> !space(r[0]) && !space(r[|r| - 1])
  {
    var l := StripLeft(s, space);
    var r := StripRight(l, space);
    assert r == [] ==> AllSpace(s, space) by {
      if r == [] {
        assert l == [];
      }
    }
    assert AllSpace(s, space) ==> l == [] by {
      if l != [] {
        assert l[0] == s[|s| - |l|];
      }
    }
    r
  }

  predicate AllSpace<T>(s: seq<T>, space: T -> bool) {
    forall i :: 0 <= i < |s| ==> space(s[i])
  }

  lemma {:induction false} StripLeftSkips<T>(pre: seq<T>, t: seq<T>, space: T -> bool)
    requires AllSpace(pre, space)
    ensures StripLeft(pre + t, space) == StripLeft(t, space)
  {
    if pre != [] {
      assert (pre + t)[0] == pre[0];
      assert (pre + t)[1..] == pre[1..] + t;
      StripLeftSkips(pre[1..], t, space);
    } else {
      assert pre + t == t;
    }
  }

  lemma {:induction false} StripRightSkips<T>(t: seq<T>, post: seq<T>, space: T -> bool)
    requires AllSpace(post, space)
    ensures StripRight(t + post, space) == StripRight(t, space)
  {
    if post != [] {
      var n := |t + post|;
      assert (t + post)[n - 1] == post[|post| - 1];
      assert (t + post)[..n - 1] == t + post[..|post| - 1];
      StripRightSkips(t, post[..|post| - 1], space);
    } else {
      assert t + post == t;
    }
  }

  /** `strip()` returns exactly the core of a text framed by whitespace: this pins the
      result down completely, independently of how it is computed. */
  lemma StripFramed<T>(pre: seq<T>, core: seq<T>, post: seq<T>, space: T -> bool)
    requires AllSpace(pre, space) && AllSpace(post, space)
    requires core == [] || (!space(core[0]) && !space(core[|core| - 1]))
    ensures Strip(pre + core + post, space) == core
  {
    var s := pre + core + post;
    assert s == pre + (core + post);
    StripLeftSkips(pre, core + post, space);
    if core == [] {
      assert core + post == post;
      StripLeftSkips(post, [], space);
      assert post + [] == post;
    } else {
      assert (core + post)[0] == core[0];
      assert StripLeft(core + post, space) == core + post;
      StripRightSkips(core, post, space);
    }
  }

  /** A text that neither starts nor ends with whitespace is its own `strip()`. */
  lemma StripUnchanged<T>(s: seq<T>, space: T -> bool)
    requires s == [] || (!space(s[0]) && !space(s[|s| - 1]))
    ensures Strip(s, space) == s
  {
    StripFramed([], s, [], space);
    assert [] + s + [] == s;
  }

  /** Stripping twice changes nothing. */
  lemma StripIdempotent<T>(s: seq<T>, space: T -> bool)
    ensures Strip(Strip(s, space), space) == Strip(s, space)
  {
    var t := Strip(s, space);
    if t == [] {
      assert StripLeft(t, space) == [];
    } else {
      StripUnchanged(t, space);
    }
  }

  // ---------------------------------------------------------------------------
  // str.join(parts), str.split(sep), str * n

  /** Python's `sep.join(parts)`. */
  function Join<T>(sep: seq<T>, parts: seq<seq<T>>): (r: seq<T>)
    ensures parts == [] ==> r == []
    ensures |parts| == 1 ==> r == parts[0]
  {
    if parts == [] then []
    else if |parts| == 1 then parts[0]
    else parts[0] + sep + Join(sep, parts[1..])
  }

  /** Python's `s.split(sep)` for a one-character separator: every occurrence splits, so
      adjacent separators give empty parts. */
  function Split<T(==)>(s: seq<T>, sep: T): (r: seq<seq<T>>)
    ensures |r| >= 1
    ensures forall k :: 0 <= k < |r| ==> sep !in r[k]
    ensures Join([sep], r) == s
    decreases |s|
  {
    if sep !in s then [s]
    else
      var i := IndexOf(s, sep);
      var rest := Split(s[i + 1..], sep);
      assert s == s[..i] + [sep] + s[i + 1..];
      [s[..i]] + rest
  }

  /** The first position of `x` in `s`. */
  function IndexOf<T(==)>(s: seq<T>, x: T): (i: nat)
    requires x in s
    ensures i < |s| && s[i] == x && x !in s[..i]
  {
    if s[0] == x then 0 else 1 + IndexOf(s[1..], x)
  }

  /** Splitting a join of separator-free parts gives the parts back. */
  lemma {:induction false} SplitJoin<T>(parts: seq<seq<T>>, sep: T)
    requires |parts| >= 1
    requires forall k :: 0 <= k < |parts| ==> sep !in parts[k]
    ensures Split(Join([sep], parts), sep) == parts
  {
    if |parts| > 1 {
      var s := Join([sep], parts);
      var p0 := parts[0];
      assert s == p0 + [sep] + Join([sep], parts[1..]);
      assert sep in s by { assert s[|p0|] == sep; }
      var i := IndexOf(s, sep);
      assert i == |p0|;
      assert s[..i] == p0;
      assert s[i + 1..] == Join([sep], parts[1..]);
      SplitJoin(parts[1..], sep);
    }
  }

  /** The concatenation of `f(x)` over the elements of `xs`, in order: what a loop that
      extends a list by `f(x)` for each `x` builds. */
  function ConcatMap<X, T>(xs: seq<X>, f: X -> seq<T>): seq<T> {
    if xs == [] then [] else ConcatMap(xs[..|xs| - 1], f) + f(xs[|xs| - 1])
  }

  /** The loop itself: extends `acc` by `f(x)` for each `x` of `xs`. */
  method ExtendEach<X, T>(acc: seq<T>, xs: seq<X>, f: X -> seq<T>) returns (r: seq<T>)
    ensures r == acc + ConcatMap(xs, f)
  {
    r := acc;
    for i := 0 to |xs|
      invariant r == acc + ConcatMap(xs[..i], f)
    {
      assert xs[..i + 1][..i] == xs[..i];
      AppendAssoc(acc, ConcatMap(xs[..i], f), f(xs[i]));
      r := r + f(xs[i]);
    }
    assert xs[..|xs|] == xs;
  }

  /** `[f(x) for x in xs]`: one element per element of `xs`, in order. */
  function MapSeq<X, T>(xs: seq<X>, f: X -> T): (r: seq<T>)
    ensures |r| == |xs|
    ensures forall i :: 0 <= i < |xs| ==> r[i] == f(xs[i])
  {
    if xs == [] then [] else MapSeq(xs[..|xs| - 1], f) + [f(xs[|xs| - 1])]
  }

  /** `''.join(parts)`: the parts one after the other. */
  function Concat<T>(parts: seq<seq<T>>): seq<T> {
    if parts == [] then [] else Concat(parts[..|parts| - 1]) + parts[|parts| - 1]
  }

  /** Joining two lists of parts is joining each and concatenating the results. */
  lemma {:induction false} ConcatAppend<T>(a: seq<seq<T>>, b: seq<seq<T>>)
    ensures Concat(a + b) == Concat(a) + Concat(b)
    decreases |b|
  {
    if b == [] {
      assert a + b == a;
    } else {
      var init := b[..|b| - 1];
      ConcatAppend(a, init);
      assert (a + b)[..|a + b| - 1] == a + init;
      AppendAssoc(Concat(a), Concat(init), b[|b| - 1]);
    }
  }

  lemma AppendAssoc<T>(a: seq<T>, b: seq<T>, c: seq<T>)
    ensures a + b + c == a + (b + c)
  {
  }

  /** Python's `x * n` for a one-character string: `n` copies, none when `n <= 0`. */
  function Repeat<T>(x: T, n: int): (r: seq<T>)
    ensures |r| == if n <= 0 then 0 else n
    ensures forall i :: 0 <= i < |r| ==> r[i] == x
    decreases n
  {
    if n <= 0 then [] else [x] + Repeat(x, n - 1)
  }

  predicate StartsWith<T(==)>(s: seq<T>, prefix: seq<T>) {
    |prefix| <= |s| && s[..|prefix|] == prefix
  }

  lemma StartsWithExtend<T>(s: seq<T>, rest: seq<T>, prefix: seq<T>)
    requires StartsWith(s, prefix)
    ensures StartsWith(s + rest, prefix)
  {
    assert (s + rest)[..|prefix|] == s[..|prefix|];
  }

  // ---------------------------------------------------------------------------
  // str(n) and int(s)

  predicate IsDigit(c: char) {
    '0' <= c <= '9'
  }

  function DigitChar(d: nat): (c: char)
    requires d < 10
    ensures IsDigit(c) && c as int - '0' as int == d
  {
    (d + '0' as int) as char
  }

  /** Python's `str(n)` for a natural number: its decimal digits, most significant first. */
  function Decimal(n: nat): (r: string)
    ensures |r| > 0 && forall i :: 0 <= i < |r| ==> IsDigit(r[i])
    decreases n
  {
    if n < 10 then [DigitChar(n)] else Decimal(n / 10) + [DigitChar(n % 10)]
  }

  /** A digit string as `int()` accepts it: ASCII digits, with single underscores allowed
      only between two digits. */
  predicate WellFormedDigits(d: string) {
    && |d| > 0
    && IsDigit(d[|d| - 1])
    && (|d| == 1
        || WellFormedDigits(d[..|d| - 1])
        || (|d| >= 3 && d[|d| - 2] == '_' && WellFormedDigits(d[..|d| - 2])))
  }

  /** The value of a well-formed digit string, underscores ignored. */
  function DigitsValue(d: string): nat
    requires WellFormedDigits(d)
  {
    var last := d[|d| - 1] as int - '0' as int;
    if |d| == 1 then last
    else if d[|d| - 2] == '_' then
      assert d[..|d| - 1][|d| - 2] == '_';
      assert !WellFormedDigits(d[..|d| - 1]);
      10 * DigitsValue(d[..|d| - 2]) + last
    else 10 * DigitsValue(d[..|d| - 1]) + last
  }

  /** Python's `int(s)` in base 10: surrounding whitespace, an optional sign, then digits;
      anything else raises `ValueError`, modelled as `None`. */
  function ParseInt(s: string): Option<int> {
    ParseSigned(Strip(s, IsSpace))
  }

  /** `int()` of a stripped text: an optional sign, then a well-formed digit string. */
  function ParseSigned(t: string): Option<int> {
    if |t| > 0 && (t[0] == '+' || t[0] == '-') then
      var d := t[1..];
      if WellFormedDigits(d) then
        var v: int := DigitsValue(d);
        Some(if t[0] == '-' then -v else v)
      else None
    else if WellFormedDigits(t) then
      Some(DigitsValue(t))
    else None
  }

  lemma {:induction false} DecimalValue(n: nat)
    ensures WellFormedDigits(Decimal(n)) && DigitsValue(Decimal(n)) == n
    decreases n
  {
    if n >= 10 {
      var d := Decimal(n);
      assert d[..|d| - 1] == Decimal(n / 10);
      DecimalValue(n / 10);
      assert d[|d| - 2] != '_';
    }
  }

  /** `int(str(n)) == n`, also with whitespace around the digits. */
  lemma ParseDecimal(pre: string, n: nat, post: string)
    requires AllSpace(pre, IsSpace) && AllSpace(post, IsSpace)
    ensures ParseInt(pre + Decimal(n) + post) == Some(n)
  {
    var d := Decimal(n);
    assert IsDigit(d[0]) && IsDigit(d[|d| - 1]);
    StripFramed(pre, d, post, IsSpace);
    DecimalValue(n);
    ParseUnsigned(d);
  }

  /** `int(str(n)) == n`. */
  lemma ParseDecimalExact(n: nat)
    ensures ParseInt(Decimal(n)) == Some(n)
  {
    var d := Decimal(n);
    assert IsDigit(d[0]) && IsDigit(d[|d| - 1]);
    StripUnchanged(d, IsSpace);
    DecimalValue(n);
    ParseUnsigned(d);
  }

  lemma ParseUnsigned(t: string)
    requires WellFormedDigits(t) && IsDigit(t[0])
    ensures ParseSigned(t) == Some(DigitsValue(t))
  {
  }

  // ---------------------------------------------------------------------------
  // str.replace(pat, '')

  /** Python's `s.replace(pat, '')`: scans left to right and deletes every
      non-overlapping occurrence of `pat`. */
  function RemoveAll(s: string, pat: string): (r: string)
    requires |pat| > 0
    ensures |r| <= |s|
    ensures forall c :: c in r ==> c in s
    decreases |s|
  {
    if |s| < |pat| then s
    else if s[..|pat|] == pat then RemoveAll(s[|pat|..], pat)
    else [s[0]] + RemoveAll(s[1..], pat)
  }

  /** A text that does not contain the first character of `pat` is left alone. */
  lemma {:induction false} RemoveAllAbsent(s: string, pat: string)
    requires |pat| > 0 && pat[0] !in s
    ensures RemoveAll(s, pat) == s
    decreases |s|
  {
    if |s| >= |pat| {
      assert s[..|pat|] != pat by { assert s[0] != pat[0]; }
      RemoveAllAbsent(s[1..], pat);
      assert s == [s[0]] + s[1..];
    }
  }

  // ---------------------------------------------------------------------------
  // Letter case

  predicate IsUpperLetter(c: char) {
    'A' <= c <= 'Z'
  }

  predicate IsLowerLetter(c: char) {
    'a' <= c <= 'z'
  }

  /** Python's `str.isupper()`: at least one cased character, and no lower-case one. */
  predicate IsUpperText(s: string) {
    && (exists i :: 0 <= i < |s| && IsUpperLetter(s[i]))
    && (forall i :: 0 <= i < |s| ==> !IsLowerLetter(s[i]))
  }

  /** Python's `str.lower()` on the letters that matter for extension matching. */
  function Lower(s: string): (r: string)
    ensures |r| == |s|
    ensures forall i :: 0 <= i < |s| ==> r[i] == if IsUpperLetter(s[i]) then (s[i] as int + 32) as char else s[i]
  {
    seq(|s|, i requires 0 <= i < |s| => if IsUpperLetter(s[i]) then (s[i] as int + 32) as char else s[i])
  }
}

=== FILE: utf8.dfy ===
/** Python's UTF-8 codec, as far as the direct converters use it to clean text:
    `s.encode('utf-8', errors='ignore').decode('utf-8')`. A Python `str` is a sequence of
    code points, lone surrogates included; UTF-8 (RFC 3629) has no encoding for a surrogate,
    so `errors='ignore'` drops it, and the strict decoder reads the remaining bytes back. */
module Utf8 {
  import opened Wrappers
  import Text

  /** A Python code point: 0 to U+10FFFF, surrogates included. */
  type CodePoint = c: int | 0 <= c < 0x11_0000

  /** A Python `str`, which, unlike a Dafny `string`, may hold lone surrogates. */
  type PyStr = seq<CodePoint>

  type Byte = b: int | 0 <= b < 0x100

  predicate IsSurrogate(c: int) {
    0xD800 <= c < 0xE000
  }

  predicate IsContinuation(b: Byte) {
    0x80 <= b < 0xC0
  }

  /** The code points of a Dafny string, which are never surrogates. */
  function Codes(t: string): (s: PyStr)
    ensures |s| == |t|
    ensures forall i :: 0 <= i < |t| ==> s[i] == t[i] as int && !IsSurrogate(s[i])
  {
    seq(|t|, i requires 0 <= i < |t| => t[i] as int)
  }

  /** A continuation byte carrying the low six bits of `x`. */
  function Cont(x: nat): Byte {
    0x80 + x % 0x40
  }

  /** The UTF-8 bytes of one scalar value: one byte below U+0080, otherwise a leading byte
      with the high bits followed by one to three continuation bytes, six bits each. */
  function EncodeScalar(c: CodePoint): (b: seq<Byte>)
    requires !IsSurrogate(c)
    ensures 1 <= |b| <= 4
    ensures |b| == 1 <==> c < 0x80
  {
    if c < 0x80 then [c]
    else if c < 0x800 then [0xC0 + c / 0x40, Cont(c)]
    else if c < 0x1_0000 then [0xE0 + c / 0x40 / 0x40, Cont(c / 0x40), Cont(c)]
    else [0xF0 + c / 0x40 / 0x40 / 0x40, Cont(c / 0x40 / 0x40), Cont(c / 0x40), Cont(c)]
  }

  /** `s.encode('utf-8', errors='ignore')`: the bytes of each encodable code point, in
      order; a surrogate contributes nothing. */
  function EncodeIgnore(s: PyStr): (r: seq<Byte>)
    ensures |r| <= 4 * |s|
  {
    if s == [] then []
    else (if IsSurrogate(s[0]) then [] else EncodeScalar(s[0])) + EncodeIgnore(s[1..])
  }

  /** The scalar value at the front of `b` as the strict decoder reads it, with the number of
      bytes it takes; `None` where Python's decoder reports an error: a continuation or
      invalid leading byte, a missing or wrong continuation byte, an overlong form, an
      encoded surrogate or a value above U+10FFFF. */
  function DecodeFirst(b: seq<Byte>): (r: Option<(char, nat)>)
    requires b != []
    ensures r.Some? ==> 1 <= r.value.1 <= |b|
  {
    var b0: int := b[0];
    if b0 < 0x80 then Some((b0 as char, 1))
    else if 0xC2 <= b0 < 0xE0 then
      if |b| >= 2 && IsContinuation(b[1]) then
        Some((((b0 - 0xC0) * 0x40 + (b[1] as int - 0x80)) as char, 2))
      else None
    else if 0xE0 <= b0 < 0xF0 then
      var lo := if b0 == 0xE0 then 0xA0 else 0x80;
      var hi := if b0 == 0xED then 0xA0 else 0xC0;
      if |b| >= 3 && lo <= b[1] < hi && IsContinuation(b[2]) then
        Some((((b0 - 0xE0) * 0x1000 + (b[1] as int - 0x80) * 0x40 + (b[2] as int - 0x80)) as char, 3))
      else None
    else if 0xF0 <= b0 < 0xF5 then
      var lo := if b0 == 0xF0 then 0x90 else 0x80;
      var hi := if b0 == 0xF4 then 0x90 else 0xC0;
      if |b| >= 4 && lo <= b[1] < hi && IsContinuation(b[2]) && IsContinuation(b[3]) then
        Some((((b0 - 0xF0) * 0x4_0000 + (b[1] as int - 0x80) * 0x1000 + (b[2] as int - 0x80) * 0x40 + (b[3] as int - 0x80)) as char, 4))
      else None
    else None
  }

  /** `b.decode('utf-8')`: the text, or `None` where it raises `UnicodeDecodeError`. */
  function Decode(b: seq<Byte>): (r: Option<string>)
    ensures r.Some? ==> |r.value| <= |b|
    decreases |b|
  {
    if b == [] then Some([])
    else
      match DecodeFirst(b)
      case None => None
      case Some((c, n)) =>
        match Decode(b[n..])
        case None => None
        case Some(rest) => Some([c] + rest)
  }

  /** The code points of `s` that UTF-8 can encode, in order: `s` without its surrogates. */
  function Encodable(s: PyStr): (r: string)
    ensures |r| <= |s|
  {
    if s == [] then []
    else (if IsSurrogate(s[0]) then [] else [s[0] as char]) + Encodable(s[1..])
  }

  /** The cleanup `s.encode('utf-8', errors='ignore').decode('utf-8')`: the decode never
      fails, and what it gives back is `s` without its lone surrogates. */
  function Clean(s: PyStr): (r: string)
    ensures r == Encodable(s)
  {
    DecodeEncodeIgnore(s);
    Decode(EncodeIgnore(s)).value
  }

  // ---------------------------------------------------------------------------
  // The round trip

  /** The decoder reads an encoded scalar value back from the front of any byte string. */
  lemma DecodeFirstEncode(c: CodePoint, rest: seq<Byte>)
    requires !IsSurrogate(c)
    ensures DecodeFirst(EncodeScalar(c) + rest) == Some((c as char, |EncodeScalar(c)|))
  {
    if c < 0x80 {
    } else if c < 0x800 {
      DecodeTwo(c, rest);
    } else if c < 0x1_0000 {
      DecodeThree(c, rest);
    } else {
      DecodeFour(c, rest);
    }
  }

  lemma DecodeTwo(c: CodePoint, rest: seq<Byte>)
    requires 0x80 <= c < 0x800
    ensures DecodeFirst(EncodeScalar(c) + rest) == Some((c as char, 2))
  {
    var b := EncodeScalar(c) + rest;
    assert c == c / 0x40 * 0x40 + c % 0x40;
    assert b[0] == 0xC0 + c / 0x40 && b[1] == Cont(c);
  }

  lemma DecodeThree(c: CodePoint, rest: seq<Byte>)
    requires 0x800 <= c < 0x1_0000 && !IsSurrogate(c)
    ensures DecodeFirst(EncodeScalar(c) + rest) == Some((c as char, 3))
  {
    var q1 := c / 0x40;
    var q2 := q1 / 0x40;
    assert c == q1 * 0x40 + c % 0x40;
    assert q1 == q2 * 0x40 + q1 % 0x40;
    var b := EncodeScalar(c) + rest;
    assert b[0] == 0xE0 + q2 && b[1] == Cont(q1) && b[2] == Cont(c);
  }

  lemma DecodeFour(c: CodePoint, rest: seq<Byte>)
    requires 0x1_0000 <= c
    ensures DecodeFirst(EncodeScalar(c) + rest) == Some((c as char, 4))
  {
    var q1 := c / 0x40;
    var q2 := q1 / 0x40;
    var q3 := q2 / 0x40;
    assert c == q1 * 0x40 + c % 0x40;
    assert q1 == q2 * 0x40 + q1 % 0x40;
    assert q2 == q3 * 0x40 + q2 % 0x40;
    var b := EncodeScalar(c) + rest;
    assert b[0] == 0xF0 + q3 && b[1] == Cont(q2) && b[2] == Cont(q1) && b[3] == Cont(c);
  }

  /** Decoding what `encode(errors='ignore')` produced never fails and gives back every
      encodable code point of the original, in order. */
  lemma {:induction false} DecodeEncodeIgnore(s: PyStr)
    ensures Decode(EncodeIgnore(s)) == Some(Encodable(s))
  {
    if s != [] {
      var rest := EncodeIgnore(s[1..]);
      DecodeEncodeIgnore(s[1..]);
      if IsSurrogate(s[0]) {
        assert EncodeIgnore(s) == rest;
        assert Encodable(s) == Encodable(s[1..]);
      } else {
        var e := EncodeScalar(s[0]);
        DecodeFirstEncode(s[0], rest);
        assert EncodeIgnore(s) == e + rest;
        assert (e + rest)[|e|..] == rest;
      }
    }
  }

  /** The strict decoder rejects the three bytes a surrogate would take if the UTF-8
      pattern for U+0800 to U+FFFF were applied to it: there is no encoding to keep. */
  lemma SurrogatePatternRejected(c: CodePoint)
    requires IsSurrogate(c)
    ensures Decode([0xE0 + c / 0x40 / 0x40, Cont(c / 0x40), Cont(c)]).None?
  {
    var q1 := c / 0x40;
    assert q1 / 0x40 == 0xD && q1 % 0x40 >= 0x20;
  }

  // ---------------------------------------------------------------------------
  // Properties of the cleanup

  /** A single code point is kept, as itself, exactly when it is not a surrogate. */
  lemma CleanSingle(c: CodePoint)
    ensures Clean([c]) == if IsSurrogate(c) then [] else [c as char]
  {
    assert [c][1..] == [];
  }

  /** Cleaning works code point by code point: it distributes over concatenation, so
      cleaning lines one at a time cleans their concatenation. */
  lemma {:induction false} CleanConcat(a: PyStr, b: PyStr)
    ensures Clean(a + b) == Clean(a) + Clean(b)
  {
    if a != [] {
      CleanConcat(a[1..], b);
      assert (a + b)[1..] == a[1..] + b;
      assert (a + b)[0] == a[0];
      Text.AppendAssoc(if IsSurrogate(a[0]) then [] else [a[0] as char], Encodable(a[1..]), Encodable(b));
    } else {
      assert a + b == b;
    }
  }

  /** Text without surrogates comes through unchanged. */
  lemma CleanKeepsEncodable(s: PyStr)
    requires forall i :: 0 <= i < |s| ==> !IsSurrogate(s[i])
    ensures Codes(Clean(s)) == s
  {
    EncodableKeeps(s);
  }

  lemma {:induction false} EncodableKeeps(s: PyStr)
    requires forall i :: 0 <= i < |s| ==> !IsSurrogate(s[i])
    ensures |Encodable(s)| == |s|
    ensures forall i :: 0 <= i < |s| ==> Encodable(s)[i] as int == s[i]
  {
    if s != [] {
      EncodableKeeps(s[1..]);
      var t := Encodable(s[1..]);
      assert Encodable(s) == [s[0] as char] + t;
      forall i | 0 < i < |s| ensures Encodable(s)[i] as int == s[i] {
        assert Encodable(s)[i] == t[i - 1];
        assert s[1..][i - 1] == s[i];
      }
    }
  }

  /** Cleaning twice is cleaning once. */
  lemma CleanIdempotent(s: PyStr)
    ensures Clean(Codes(Clean(s))) == Clean(s)
  {
    var t := Clean(s);
    CleanKeepsEncodable(Codes(t));
    assert Codes(Clean(Codes(t))) == Codes(t);
    CodesInjective(Clean(Codes(t)), t);
  }

  lemma CodesInjective(x: string, y: string)
    requires Codes(x) == Codes(y)
    ensures x == y
  {
    assert forall i :: 0 <= i < |x| ==> x[i] as int == Codes(y)[i];
  }

  /** The cleanup loses something exactly when there is a surrogate to drop. */
  lemma {:induction false} CleanShortensIffSurrogate(s: PyStr)
    ensures |Clean(s)| < |s| <==> exists i :: 0 <= i < |s| && IsSurrogate(s[i])
  {
    if s != [] {
      CleanShortensIffSurrogate(s[1..]);
      if exists i :: 0 <= i < |s[1..]| && IsSurrogate(s[1..][i]) {
        var i :| 0 <= i < |s[1..]| && IsSurrogate(s[1..][i]);
        assert IsSurrogate(s[i + 1]);
      }
      if exists i :: 0 <= i < |s| && IsSurrogate(s[i]) {
        var i :| 0 <= i < |s| && IsSurrogate(s[i]);
        if i > 0 {
          assert IsSurrogate(s[1..][i - 1]);
        }
      }
    }
  }
}

=== FILE: wrappers.dfy ===
/** Plain wrappers used to model Python's optional values and raised exceptions. */
module Wrappers {

  /** A value that may be absent: a missing dictionary key, a `None`, a call that raised. */
  datatype Option<+T> = None | Some(value: T) {

    /** The wrapped value, or `default` when there is none (Python's `dict.get(key, default)`). */
    function GetOr(default: T): T {
      match this
      case Some(v) => v
      case None => default
    }
  }

  /** The outcome of an operation that either returns a value or raises an error. */
  datatype Result<+T, +E> = Ok(value: T) | Err(error: E)
}
